=== FILE: README.md ===
# CustomAPIProvider in Dafny

A model of LandPPT's configuration-driven chat adapter, `CustomAPIProvider`
(`src/landppt/ai/custom_provider.py`). The adapter sends chat messages to any
HTTP JSON endpoint. It shapes each request either as a fixed OpenAI body or
by filling a caller-supplied template with `{{model}}`, `{{messages}}`,
`{{max_tokens}}`, `{{temperature}}` and `{{top_p}}`. It POSTs the body and
retries on `aiohttp.ClientError` with exponential backoff. It then reads the
reply either from fixed OpenAI fields or through three configured dot-paths,
coercing what it finds to defaults.

Modules, following the stages of the adapter:

- `Errors` (errors.dfy): the Python exceptions that can leave the adapter, plus `Option` and `Result`.
- `Json` (json.dfy): JSON values as Python holds them after `json.loads`. `JNull` is `None` and dicts are ordered field lists. It also has dict lookup, truthiness and `str()`.
- `Text` (text.dfy): Python's `p in s` and `s.replace(p, r)`. Each is tied to the indices where the pattern occurs. `ContainsIff` does this for `p in s`. `ReplaceFirstOccurrence` and `ReplaceAbsent` do it for `str.replace`. The module also has the lemmas the placeholder proofs need. `Count` is Python's `str.count`, which the adapter does not call. It exists only so that `ReplaceLength` can state how `str.replace` changes length, and it has no index-based reading.
- `Placeholders` (placeholders.dfy): `_replace_placeholders`.
- `Paths` (paths.dfy): `path.split(".")` and `_extract_from_path`.
- `Retry` (retry.dfy): the retry loop of `_make_request`.
- `Config` (config.dfy): `__init__` validation and `_build_headers`.
- `Request` (request.dfy): `_format_request`.
- `Response` (response.dfy): `_parse_response`.
- `Completion` (completion.dfy): `chat_completion`, `text_completion` and `stream_chat_completion`.

Python's `str(x)` (for non-strings) and `json.dumps(x)` are not defined
here. They are the two fields of a `Renderer` value that callers pass in, so
every property holds for any rendering. Only `str(s) == s` for a string `s`
is fixed. The network is a `Transport` function. It maps a POST (URL,
headers, body, timeout) and an attempt index to `Reply(json)`,
`ClientFailure` or `OtherFailure`. Sleeps become the list of delays in a
`Trace`.

Behaviour kept as the code has it:

- Keys are substituted one after another, in the order model, messages,
  max_tokens, temperature, top_p. Each test runs against the text rewritten
  so far.
- A placeholder keeps its native type only when it is a dict or list
  standing alone in its string. A scalar is always spliced in as `str(value)`.
- In OpenAI mode an empty `choices` list raises `IndexError`. Only a missing
  `choices` key falls back to `[{}]`.
- With `max_retries <= 0` nothing is sent and `None` is parsed. Custom mode
  then gives an empty response; OpenAI mode raises `AttributeError`.
- A custom template that is not a dict or list has no `.copy()` and raises
  `AttributeError`.
- An unknown request format is rejected before any POST. An unknown response
  format is rejected only after the retry loop has ended without raising.
  A reply then gets the ValueError, and so does the `None` of a loop that
  never ran (`max_retries <= 0`).
- Only `aiohttp.ClientError` is caught (line 221). Any other exception,
  such as the `asyncio.TimeoutError` of an exhausted total timeout,
  propagates at once without a retry: an `OtherFailure` ends the loop.

## Model

| member | source | states |
|---|---|---|
| Json.Lookup | src/landppt/ai/custom_provider.py:150 | `dict.get` finds a value exactly when some field has the key, and the value found is bound to that key |
| Text.ContainsIff | src/landppt/ai/custom_provider.py:116 | the `placeholder in data` test holds exactly when the placeholder occurs at some index of the text |
| Text.Contains | src/landppt/ai/custom_provider.py:116 | a pattern found is no longer than the text, and the empty pattern is in every text; `ContainsIff` gives its index reading |
| Text.ReplaceAbsent | src/landppt/ai/custom_provider.py:122-124 | `str.replace` of a pattern that does not occur returns the text unchanged |
| Text.Replace | src/landppt/ai/custom_provider.py:122-124 | replacing a pattern by itself gives back the text; `ReplaceFirstOccurrence`, `ReplaceAbsent` and `ReplaceLength` characterise it |
| Text.ReplaceFirstOccurrence | src/landppt/ai/custom_provider.py:122-124 | with the first occurrence of a non-empty pattern at index `i`, the text before `i` is kept, that occurrence becomes the replacement, and the scan resumes after it |
| Text.ReplaceLength | src/landppt/ai/custom_provider.py:122-124 | the result is longer than the text by `s.count(p)` times the difference in length between the replacement and the pattern |
| Text.ReplaceAfterPrefix | src/landppt/ai/custom_provider.py:122-124 | `str.replace` rewrites the first occurrence in place, keeping the text before it, and carries on after it |
| Placeholders.SubstituteKeepsShape | src/landppt/ai/custom_provider.py:103-111 | substitution keeps every dict key and its order and every list length and order, and leaves non-string leaves untouched |
| Placeholders.Substitute | src/landppt/ai/custom_provider.py:103-127 | one level down, a dict keeps its keys in order, a list keeps its length, and a non-string leaf is returned as is; `SubstituteKeepsShape` extends this to the whole tree |
| Placeholders.SubstituteText | src/landppt/ai/custom_provider.py:112-125 | a string leaf stays a string when no value is a dict or list, and otherwise becomes a string or a dict/list; `TextResultKind` names which value |
| Placeholders.PlaceholderFreeUnchanged | src/landppt/ai/custom_provider.py:103-127 | a template whose strings mention no known placeholder is returned equal to itself |
| Placeholders.TextWithoutPlaceholderUnchanged | src/landppt/ai/custom_provider.py:112-125 | a string with no known placeholder, unknown `{{x}}` tokens included, is returned unchanged |
| Placeholders.TextResultKind | src/landppt/ai/custom_provider.py:112-125 | a string leaf becomes a string or one of the dict/list values verbatim, and never a scalar's native value |
| Placeholders.ExactContainerPlaceholder | src/landppt/ai/custom_provider.py:114-120 | a string that is exactly the placeholder of a dict/list value becomes that value with its native type |
| Placeholders.ExactMatchAfterRewrite | src/landppt/ai/custom_provider.py:114-124 | the `data == placeholder` test at line 119 sees text that earlier keys rewrote. If the first value is the text of the second key's placeholder and the second value is a dict or list, an exact first placeholder ends up as the second value itself |
| Placeholders.EmbeddedPlaceholder | src/landppt/ai/custom_provider.py:114-125 | for keys that are distinct and brace-free, with `{`-free text around the placeholder and a rendering that holds no `{{`: the placeholder is replaced in place by `str(value)`, or by JSON text for a dict/list that is not alone, and the surrounding characters are kept |
| Placeholders.SplicedThenLaterKeys | src/landppt/ai/custom_provider.py:114-125 | keys are substituted one after another. If no earlier key's placeholder occurs in the string and the placeholder occurs only right after `pre`, the string is rewritten to `pre`, the rendering and `post`. The later keys then run on that rewritten text, including any placeholder the rendering brought in |
| Placeholders.SplicedPlaceholder | src/landppt/ai/custom_provider.py:114-125 | for any surrounding text: if no earlier key's placeholder occurs in the string, the placeholder occurs only right after `pre`, and the spliced result holds no later key's placeholder, then the string becomes `pre`, `str(value)` (or JSON text for a dict/list not alone) and `post` |
| Placeholders.ExactScalarPlaceholder | src/landppt/ai/custom_provider.py:123-124 | for keys that are distinct and brace-free, when `str(value)` holds no `{{`: a string that is exactly the placeholder of a scalar value becomes the text `str(value)`, not the value (a `{{` in the text can let a later key rewrite it) |
| Paths.SplitJoin | src/landppt/ai/custom_provider.py:134 | joining the pieces of `path.split(".")` with dots gives back the path |
| Paths.Split | src/landppt/ai/custom_provider.py:134 | `path.split(".")` yields at least one piece; `SplitJoin` and `JoinSplit` make it the inverse of joining with dots |
| Paths.SplitPiecesNoDot | src/landppt/ai/custom_provider.py:134 | no piece of a split path contains a dot |
| Paths.JoinSplit | src/landppt/ai/custom_provider.py:134 | splitting dot-joined dot-free pieces gives back the pieces |
| Paths.SplitDot | src/landppt/ai/custom_provider.py:134 | splitting `a.b` gives the pieces of `a` followed by those of `b` |
| Paths.DecimalText | src/landppt/ai/custom_provider.py:142-143 | the decimal text of `n` is all digits and `int()` reads it back as `n` |
| Paths.Step | src/landppt/ai/custom_provider.py:138-152 | a digit segment advances only into a list at an in-range index; any other segment advances only into a dict, to the key's value; every other case is `None` |
| Paths.Extract | src/landppt/ai/custom_provider.py:131-132 | an empty path returns the whole body |
| Paths.Walk | src/landppt/ai/custom_provider.py:137-154 | a `None` reached at any point stays `None` to the end, and no pieces leave the value as it is; `WalkAppend` composes walks |
| Paths.WalkAppend | src/landppt/ai/custom_provider.py:137-154 | walking two segment lists in turn equals walking their concatenation, with `None` absorbing |
| Paths.ExtractCompose | src/landppt/ai/custom_provider.py:129-154 | extraction along `a.b` equals extraction along `b` from the result of `a` |
| Paths.ExtractSegment | src/landppt/ai/custom_provider.py:137-152 | a dot-free path is a single step |
| Paths.NoneExtractsNone | src/landppt/ai/custom_provider.py:131-139 | every path applied to `None` yields `None` |
| Paths.IndexOutOfRangeIsAbsent | src/landppt/ai/custom_provider.py:142-147 | `key.n` on a list of length at most `n` yields `None` instead of raising |
| Paths.NestedKeyLookup | src/landppt/ai/custom_provider.py:148-152 | `a.b` on nested dicts reaches the inner value |
| Retry.MakeRequest | src/landppt/ai/custom_provider.py:205-225 | the loop as written (return, re-raise on the last attempt, sleep `2 ** attempt`) computes the reference retry trace |
| Retry.RetryFromSpec | src/landppt/ai/custom_provider.py:210-225 | from any iteration on, the loop stops at the first non-ClientError or at the last permitted attempt, re-raises a final ClientError, and sleeps `2^i` after each earlier attempt `i` |
| Retry.RetrySpec | src/landppt/ai/custom_provider.py:210-225 | at most `max_retries` attempts; none, and a `None` result, when `max_retries <= 0`; otherwise one delay of `2^i` after each attempt `i` but the last |
| Retry.FirstReplyReturned | src/landppt/ai/custom_provider.py:218-219 | the first successful reply is returned after exactly that many attempts, and nothing after it is tried |
| Retry.ExhaustedRaisesLast | src/landppt/ai/custom_provider.py:221-225 | when every attempt fails with a ClientError, the last one is re-raised after `max_retries` attempts and `max_retries - 1` delays 1, 2, 4, ... |
| Config.NewProvider | src/landppt/ai/custom_provider.py:24-51 | construction succeeds exactly when `api_url` and `api_key` are present and non-empty; otherwise it raises the ValueError naming the first one missing |
| Config.DefaultSettings | src/landppt/ai/custom_provider.py:32-45 | with no optional settings: `Authorization` with `Bearer`, timeout 60, 3 retries, OpenAI formats both ways, default paths |
| Config.BuildHeaders | src/landppt/ai/custom_provider.py:53-64 | headers hold exactly the content type and the key header; the key header is `<prefix> <key>` with a non-empty prefix and the bare key without one; a `Content-Type` key header overrides the content type |
| Request.MessagesRoundTrip | src/landppt/ai/custom_provider.py:73-77 | decoding the sent message list gives back the messages: same length, order, roles and contents |
| Request.OpenAIBodyFacts | src/landppt/ai/custom_provider.py:72-82 | the built-in body has keys model, messages, max_tokens, temperature, top_p, stream in that order, carries the messages, and `stream` is false |
| Request.OpenAIBodyValues | src/landppt/ai/custom_provider.py:72-82 | the built-in body carries the model, max_tokens, temperature and top_p values under their own keys |
| Request.FormatRequest | src/landppt/ai/custom_provider.py:66-101 | OpenAI mode gives the six-key body with the merged model, max_tokens, temperature and top_p or their defaults (the provider model, 2000, 0.7, 1.0), the messages and `stream` false; custom mode raises AttributeError on a template without `.copy()` (not a dict or list), and otherwise keeps the template's shape and returns a template without placeholders unchanged; any other format raises `ValueError("Unknown request format: ...")` |
| Request.TemplateFacts | src/landppt/ai/custom_provider.py:84-99 | a filled template has the configured template's shape and equals it when it has no placeholders |
| Request.MessagesPlaceholderKeepsList | src/landppt/ai/custom_provider.py:88-93 | a template string that is exactly `{{messages}}` becomes the structured message list |
| Request.MessagesPlaceholderEmbedded | src/landppt/ai/custom_provider.py:117-122 | with `{`-free text around it and a JSON text of the list that holds no `{{`: `{{messages}}` inside a longer string becomes the list's JSON text in place (`json.dumps` does not escape braces, so a message holding `{{top_p}}` would be rewritten by a later key) |
| Request.ModelPlaceholder | src/landppt/ai/custom_provider.py:114-124 | with `{`-free text around it: `{{model}}` alone in its string and holding a dict/list model is kept as that value; otherwise, when the model's text holds no `{{`, it is replaced in place by that text |
| Request.MaxTokensPlaceholderIsText | src/landppt/ai/custom_provider.py:123-124 | when the scalar's text holds no `{{`: an exact `{{max_tokens}}` becomes the text `str(value)`, not the number |
| Request.ModelTextNamingMessages | src/landppt/ai/custom_provider.py:88-124 | with a model whose text is `{{messages}}`, a template string that is exactly `{{model}}` is sent as the structured message list |
| Request.CustomBody | src/landppt/ai/custom_provider.py:83-99 | with a dict or list template, the body sent is the template with the model, messages, max_tokens, temperature and top_p values substituted |
| Request.MessagesFieldFilled | src/landppt/ai/custom_provider.py:85-99 | a dict template field whose value is exactly `{{messages}}` is sent with the structured message list under the same key, and all keys are kept |
| Response.First | src/landppt/ai/custom_provider.py:160 | `choices[0]` succeeds only on a non-empty list or string; an empty list raises IndexError |
| Response.UsageCounters | src/landppt/ai/custom_provider.py:186-194 | usage has exactly the keys prompt_tokens, completion_tokens, total_tokens, each from a dict usage value or 0, and all 0 for a non-dict |
| Response.ParseCustom | src/landppt/ai/custom_provider.py:174-201 | custom parsing never fails. Content is a string: `""` for None, `str(x)` for non-strings. The model falls back when falsy. Usage is the three counters, each `usage.get(k, 0)` on a dict and 0 otherwise. `finish_reason` is None, and the metadata is the provider name `custom` and the endpoint |
| Response.ParseResponse | src/landppt/ai/custom_provider.py:156-203 | selects OpenAI or custom parsing; any other format raises `ValueError("Unknown response format: ...")` |
| Response.ParseOpenAI | src/landppt/ai/custom_provider.py:158-173 | a non-dict body raises AttributeError; only lookup errors (AttributeError, IndexError, KeyError, TypeError) can be raised; a present `model` or `usage` is returned as given; metadata is the provider name `custom` and the endpoint |
| Response.OpenAIDefaults | src/landppt/ai/custom_provider.py:158-173 | missing `choices`, `usage` or `model` fall back to `[{}]`, zero usage or the default model; an empty `choices` list raises IndexError |
| Response.OpenAIContent | src/landppt/ai/custom_provider.py:160-171 | the content is the first choice's `message.content`, or `""` when absent, and `finish_reason` is read from that choice |
| Response.OpenAIMessageAbsent | src/landppt/ai/custom_provider.py:160-171 | a first choice without `message` gives content `""` via the `{}` default; a `message` that is not a dict raises AttributeError on `.get` |
| Response.CustomNestedContent | src/landppt/ai/custom_provider.py:176-194 | content path `a.b` reads a nested string as the content, and an absent usage path gives zero usage |
| Completion.StreamChatCompletion | src/landppt/ai/custom_provider.py:248-252 | streaming yields exactly one chunk equal to the full completion's content, or fails with its error |
| Completion.Send | src/landppt/ai/custom_provider.py:205-225 | the loop ends without returning or raising exactly when `max_retries <= 0`, and then makes no attempt; otherwise it makes at most `max_retries` attempts with one delay after each but the last; a returned body is the reply to the POST of the endpoint, the built headers, the body and the timeout on the last attempt |
| Completion.ChatCompletion | src/landppt/ai/custom_provider.py:227-241 | an exception from the retry loop is re-raised unchanged in every mode. A returned reply is parsed as the response. A successful result carries the provider name and endpoint. An unknown response format never succeeds. In custom response mode, a formatted request whose sending raised nothing always parses |
| Completion.ClientErrorsReachCaller | src/landppt/ai/custom_provider.py:221-241 | when every attempt fails with a ClientError, the caller of a formattable request gets the last attempt's ClientError, in every response mode |
| Completion.TextCompletion | src/landppt/ai/custom_provider.py:243-246 | a text completion is the chat completion of the single user message holding the prompt |
| Completion.TextPromptSent | src/landppt/ai/custom_provider.py:243-246 | in OpenAI mode the body of a text completion has `messages` equal to the one dict `{"role": "user", "content": prompt}` |
| Completion.FormatErrorSendsNothing | src/landppt/ai/custom_provider.py:227-241 | a formatting error raises before any POST: the result is that error, whatever the transport |
| Completion.ResponseFormatCheckedAfterSend | src/landppt/ai/custom_provider.py:227-241 | with a formattable request and an unknown response format, an exception from the retry loop is raised as it is, and any reply, or the `None` of an empty loop, gives `ValueError("Unknown response format: ...")` |
| Completion.NoAttemptsFallThrough | src/landppt/ai/custom_provider.py:210-225 | with `max_retries <= 0` no attempt is made and `None` is returned |
| Completion.ParseNone | src/landppt/ai/custom_provider.py:156-201 | parsing `None` gives an empty response in custom mode and AttributeError in OpenAI mode |
| Completion.NoAttemptsParsesNone | src/landppt/ai/custom_provider.py:227-237 | with `max_retries <= 0`, a chat completion sends nothing and returns the empty custom response, or AttributeError in OpenAI mode |
| Completion.ThirdAttemptSucceeds | src/landppt/ai/custom_provider.py:210-225 | two ClientErrors then a reply with three attempts allowed: the reply is returned on the third attempt, after delays 1 and 2 |

## Left out

- Network I/O is left out: the aiohttp session, `post`, `raise_for_status` and `response.json()`. Each attempt's result is a value the `Transport` returns, and a non-JSON body counts as one of the failures.
- `asyncio.sleep` and `async`/`await` are left out. Delays are recorded in the `Trace`, and no time passes.
- Logging is left out (`logger.error` in the retry loop and in `chat_completion`). It has side effects only.
- `_merge_config`, `self.model`, `AIMessage`, `MessageRole` and `AIResponse` come from `landppt.ai.base`, which is not part of this model. The merged parameters and the default model are inputs. Roles are a three-valued enum with the labels `system`, `user` and `assistant`. `AIResponse` is modelled as the values passed to its constructor, with no validation.
- `get_model_info` only returns configuration values as a diagnostic dict, so it is not modelled.
- Python's `str()` of non-strings and `json.dumps` are uninterpreted. Their exact text is not modelled.
- Floats are Dafny reals: `temperature` 0.7 and `top_p` 1.0, with no NaN or rounding.
- Paths.IsDigits: accepts ASCII `0`-`9` only. Python's `str.isdigit` also accepts other Unicode digits, and for some of those `int()` raises.
- Config.NewProvider: an optional key present with value `None` is not modelled. A setting is either absent, giving its default, or present with a value of the expected type.
- Placeholders.EmbeddedPlaceholder: requires `{`-free text around the placeholder. This keeps the proof short. Any surrounding text, including JSON-like text such as `{"q": "{{messages}}"}`, is covered by `Placeholders.SplicedPlaceholder`.
- Request.MessagesPlaceholderEmbedded: requires `{`-free text around `{{messages}}`, as the instance of `EmbeddedPlaceholder` for the message list. Other surroundings are covered by `Placeholders.SplicedPlaceholder` with the entries of `Request.Entries`.
- Request.ModelPlaceholder: requires `{`-free text around `{{model}}`, for the same reason. Other surroundings are covered by `Placeholders.SplicedPlaceholder`.
- Json.Lookup: objects are assumed to have distinct keys, as Python dicts do. With repeated keys the first binding is found. Python's `json.loads` keeps the last of any repeated keys, so the adapter never sees such an object and the choice never matters.
- Response.ParseCustom: the custom-mode `AIResponse(...)` passes no `finish_reason` (lines 196-201). Its value is `AIResponse`'s default in `landppt.ai.base`, which is not part of this model, and it is taken to be `None`.
- Cancellation and concurrent calls are not modelled. Each call is an independent pure function of its inputs.
- The configured template is never mutated, because values are immutable here. The source gets the same effect by rebuilding every dict and list.

=== FILE: completion.dfy ===
/** The entry points: `chat_completion` (format, send with retries, parse),
    `text_completion` and the single-chunk `stream_chat_completion`. */
module Completion {
  import opened Errors
  import opened Json
  import opened Config
  import opened Request
  import opened Retry
  import opened Response
  import Paths

  /** One POST: endpoint, headers, JSON body and timeout in seconds. */
  datatype Post = Post(url: string, headers: map<string, string>, body: Json, timeout: int)

  /** The transport: what attempt number `i` of a POST produces. */
  type Transport = (Post, nat) -> Attempt

  /** `_make_request` for a formatted body: every attempt POSTs the same
      request, at most `max_retries` times. */
  function Send(p: Provider, body: Json, transport: Transport): (t: Trace)
    ensures t.outcome.FellThrough? <==> p.maxRetries <= 0
    ensures t.outcome.FellThrough? ==> t.attempts == 0 && t.delays == []
    ensures !t.outcome.FellThrough? ==> 0 < t.attempts <= p.maxRetries && |t.delays| == t.attempts - 1
    ensures t.outcome.Returned? ==>
      transport(Post(p.apiUrl, BuildHeaders(p), body, p.timeout), t.attempts - 1) == Reply(t.outcome.body)
  {
    var post := Post(p.apiUrl, BuildHeaders(p), body, p.timeout);
    var send := (i: nat) => transport(post, i);
    RetrySpec(p.maxRetries, send);
    RetryFromSpec(0, p.maxRetries, send);
    Retry.Retry(p.maxRetries, send)
  }

  /** `chat_completion`: any failure of a stage is re-raised unchanged; a
      run that made no attempt parses `None`. */
  function ChatCompletion(p: Provider, ms: seq<Message>, merged: map<string, Json>, defaultModel: Json,
                          r: Renderer, transport: Transport): (res: Result<AIResponse>)
    ensures res.Ok? ==> res.value.provider == "custom" && res.value.apiUrl == p.apiUrl
    ensures p.responseFormat != "openai" && p.responseFormat != "custom" ==> res.Err?
    ensures (&& p.responseFormat == "custom"
             && FormatRequest(p, ms, merged, defaultModel, r).Ok?
             && !Send(p, FormatRequest(p, ms, merged, defaultModel, r).value, transport).outcome.Raised?)
            ==> res.Ok?
    ensures FormatRequest(p, ms, merged, defaultModel, r).Ok? ==>
      var t := Send(p, FormatRequest(p, ms, merged, defaultModel, r).value, transport);
      && (t.outcome.Raised? ==> res == Err(t.outcome.error))
      && (t.outcome.Returned? ==> res == ParseResponse(p, t.outcome.body, defaultModel, r))
  {
    match FormatRequest(p, ms, merged, defaultModel, r)
    case Err(e) => Err(e)
    case Ok(body) =>
      match Send(p, body, transport).outcome
      case Raised(e) => Err(e)
      case Returned(reply) => ParseResponse(p, reply, defaultModel, r)
      case FellThrough => ParseResponse(p, JNull, defaultModel, r)
  }

  /** `text_completion`: one user message. */
  function TextCompletion(p: Provider, prompt: string, merged: map<string, Json>, defaultModel: Json,
                          r: Renderer, transport: Transport): (res: Result<AIResponse>)
    ensures res == ChatCompletion(p, [Message(User, prompt)], merged, defaultModel, r, transport)
  {
    ChatCompletion(p, [Message(User, prompt)], merged, defaultModel, r, transport)
  }

  /** `stream_chat_completion`: exactly one chunk, the full content of the
      non-streamed completion, or that completion's error. */
  function StreamChatCompletion(p: Provider, ms: seq<Message>, merged: map<string, Json>, defaultModel: Json,
                                r: Renderer, transport: Transport): (chunks: Result<seq<Json>>)
    ensures var full := ChatCompletion(p, ms, merged, defaultModel, r, transport);
      && (chunks.Ok? <==> full.Ok?)
      && (chunks.Ok? ==> |chunks.value| == 1 && chunks.value[0] == full.value.content)
      && (chunks.Err? ==> chunks.error == full.error)
  {
    match ChatCompletion(p, ms, merged, defaultModel, r, transport)
    case Ok(response) => Ok([response.content])
    case Err(e) => Err(e)
  }

  /** A formatting error (an unknown request format, or a custom template
      that is not a dict or list) is raised before any POST: the result is
      that error whatever the transport would have done. */
  lemma FormatErrorSendsNothing(p: Provider, ms: seq<Message>, merged: map<string, Json>, defaultModel: Json,
                                r: Renderer, t1: Transport, t2: Transport)
    requires FormatRequest(p, ms, merged, defaultModel, r).Err?
    ensures ChatCompletion(p, ms, merged, defaultModel, r, t1)
         == ChatCompletion(p, ms, merged, defaultModel, r, t2)
         == Err(FormatRequest(p, ms, merged, defaultModel, r).error)
  {
  }

  /** An unknown response format is only noticed once the loop has ended
      without raising: a reply (or the `None` of an empty loop) gets the
      ValueError, while an exception from the loop is raised as it is. */
  lemma ResponseFormatCheckedAfterSend(p: Provider, ms: seq<Message>, merged: map<string, Json>, defaultModel: Json,
                                       r: Renderer, transport: Transport)
    requires p.requestFormat == "openai" || (p.requestFormat == "custom" && IsContainer(p.requestTemplate))
    requires p.responseFormat != "openai" && p.responseFormat != "custom"
    ensures var t := Send(p, FormatRequest(p, ms, merged, defaultModel, r).value, transport);
      && (t.outcome.Raised? ==>
            ChatCompletion(p, ms, merged, defaultModel, r, transport) == Err(t.outcome.error))
      && (!t.outcome.Raised? ==>
            ChatCompletion(p, ms, merged, defaultModel, r, transport)
              == Err(ValueError("Unknown response format: " + p.responseFormat)))
  {
  }

  /** When every attempt fails with a ClientError, the caller gets the last
      attempt's ClientError, whatever the response format. */
  lemma ClientErrorsReachCaller(p: Provider, ms: seq<Message>, merged: map<string, Json>, defaultModel: Json,
                                r: Renderer, transport: Transport)
    requires p.requestFormat == "openai" || (p.requestFormat == "custom" && IsContainer(p.requestTemplate))
    requires p.maxRetries >= 1
    requires forall post: Post, i: nat :: transport(post, i).ClientFailure?
    ensures var body := FormatRequest(p, ms, merged, defaultModel, r).value;
      ChatCompletion(p, ms, merged, defaultModel, r, transport)
        == Err(ClientError(transport(Post(p.apiUrl, BuildHeaders(p), body, p.timeout), p.maxRetries - 1).cause))
  {
    var body := FormatRequest(p, ms, merged, defaultModel, r).value;
    var post := Post(p.apiUrl, BuildHeaders(p), body, p.timeout);
    ExhaustedRaisesLast(p.maxRetries, (i: nat) => transport(post, i));
  }

  /** `text_completion` sends its prompt as the only message, with role
      `user`: in OpenAI mode the body's `messages` is that one dict. */
  lemma TextPromptSent(p: Provider, prompt: string, merged: map<string, Json>, defaultModel: Json, r: Renderer)
    requires p.requestFormat == "openai"
    ensures var body := FormatRequest(p, [Message(User, prompt)], merged, defaultModel, r).value;
      Lookup(body.fields, "messages")
        == Some(JArr([JObj([Field("role", JStr("user")), Field("content", JStr(prompt))])]))
  {
    var ms := [Message(User, prompt)];
    var g := Resolve(merged, defaultModel);
    OpenAIBodyFacts(ms, g);
    assert MessagesJson(ms).items == [MessageJson(ms[0])];
  }

  /** With `max_retries <= 0` the loop body never runs. */
  lemma NoAttemptsFallThrough(p: Provider, body: Json, transport: Transport)
    requires p.maxRetries <= 0
    ensures Send(p, body, transport) == Trace(FellThrough, 0, [])
  {
  }

  /** Parsing `None`: custom mode yields empty content, zero usage and the
      default model, while OpenAI mode fails on `None.get`. */
  lemma ParseNone(p: Provider, defaultModel: Json, r: Renderer)
    ensures p.responseFormat == "custom" ==>
      ParseResponse(p, JNull, defaultModel, r) == Ok(AIResponse(JStr(""), defaultModel, ZeroUsage, JNull, "custom", p.apiUrl))
    ensures p.responseFormat == "openai" ==>
      ParseResponse(p, JNull, defaultModel, r) == Err(AttributeError)
  {
    Paths.NoneExtractsNone(p.contentPath);
    Paths.NoneExtractsNone(p.modelPath);
    Paths.NoneExtractsNone(p.usagePath);
  }

  /** With `max_retries <= 0` nothing is sent and `None` is parsed. */
  lemma NoAttemptsParsesNone(p: Provider, ms: seq<Message>, merged: map<string, Json>, defaultModel: Json,
                             r: Renderer, transport: Transport)
    requires p.maxRetries <= 0
    requires p.requestFormat == "openai" || (p.requestFormat == "custom" && IsContainer(p.requestTemplate))
    ensures p.responseFormat == "custom" ==>
      ChatCompletion(p, ms, merged, defaultModel, r, transport)
        == Ok(AIResponse(JStr(""), defaultModel, ZeroUsage, JNull, "custom", p.apiUrl))
    ensures p.responseFormat == "openai" ==>
      ChatCompletion(p, ms, merged, defaultModel, r, transport) == Err(AttributeError)
  {
    var formatted := FormatRequest(p, ms, merged, defaultModel, r);
    NoAttemptsFallThrough(p, formatted.value, transport);
    ParseNone(p, defaultModel, r);
    assert ChatCompletion(p, ms, merged, defaultModel, r, transport) == ParseResponse(p, JNull, defaultModel, r);
  }

  /** A transport that fails twice with a ClientError and then replies, with
      three attempts allowed, gets its reply parsed on the third attempt. */
  lemma ThirdAttemptSucceeds(p: Provider, body: Json, transport: Transport, reply: Json)
    requires p.maxRetries == 3
    requires var post := Post(p.apiUrl, BuildHeaders(p), body, p.timeout);
      transport(post, 0).ClientFailure? && transport(post, 1).ClientFailure?
      && transport(post, 2) == Reply(reply)
    ensures Send(p, body, transport) == Trace(Returned(reply), 3, [1, 2])
  {
    var post := Post(p.apiUrl, BuildHeaders(p), body, p.timeout);
    var send := (i: nat) => transport(post, i);
    FirstReplyReturned(3, send, 2);
    assert Backoffs(2) == [1, 2];
  }
}

=== FILE: config.dfy ===
/** Construction-time configuration of the adapter (`__init__`) and the
    request headers built from it (`_build_headers`). */
module Config {
  import opened Errors
  import opened Json

  /** The config dict given to the constructor; `None` is a missing key. */
  datatype Settings = Settings(
    apiUrl: Option<string>,
    apiKey: Option<string>,
    apiKeyHeader: Option<string>,
    apiKeyPrefix: Option<string>,
    timeout: Option<int>,
    maxRetries: Option<int>,
    requestFormat: Option<string>,
    customRequestTemplate: Option<Json>,
    responseFormat: Option<string>,
    responseContentPath: Option<string>,
    responseModelPath: Option<string>,
    responseUsagePath: Option<string>)

  /** A constructed adapter, every optional setting resolved to its value. */
  datatype Provider = Provider(
    apiUrl: string,
    apiKey: string,
    apiKeyHeader: string,
    apiKeyPrefix: string,
    timeout: int,
    maxRetries: int,
    requestFormat: string,       // "openai" or "custom"; anything else fails on use
    requestTemplate: Json,
    responseFormat: string,      // "openai" or "custom"; anything else fails on use
    contentPath: string,
    modelPath: string,
    usagePath: string)

  /** `config.get(key, default)` */
  function OrElse<T>(o: Option<T>, default: T): T {
    match o
    case Some(v) => v
    case None => default
  }

  /** A setting is truthy when present and non-empty. */
  predicate Given(o: Option<string>) {
    o.Some? && |o.value| > 0
  }

  /** Construction: missing or empty `api_url`, then `api_key`, is a
      ValueError; every other setting falls back to its default. */
  function NewProvider(s: Settings): (r: Result<Provider>)
    ensures r.Ok? <==> Given(s.apiUrl) && Given(s.apiKey)
    ensures !Given(s.apiUrl) ==> r == Err(ValueError("api_url is required for CustomAPIProvider"))
    ensures Given(s.apiUrl) && !Given(s.apiKey) ==> r == Err(ValueError("api_key is required for CustomAPIProvider"))
    ensures r.Ok? ==> r.value.apiUrl == s.apiUrl.value && r.value.apiKey == s.apiKey.value
    ensures r.Ok? ==> |r.value.apiUrl| > 0 && |r.value.apiKey| > 0
  {
    if !Given(s.apiUrl) then Err(ValueError("api_url is required for CustomAPIProvider"))
    else if !Given(s.apiKey) then Err(ValueError("api_key is required for CustomAPIProvider"))
    else Ok(Provider(
      apiUrl := s.apiUrl.value,
      apiKey := s.apiKey.value,
      apiKeyHeader := OrElse(s.apiKeyHeader, "Authorization"),
      apiKeyPrefix := OrElse(s.apiKeyPrefix, "Bearer"),
      timeout := OrElse(s.timeout, 60),
      maxRetries := OrElse(s.maxRetries, 3),
      requestFormat := OrElse(s.requestFormat, "openai"),
      requestTemplate := OrElse(s.customRequestTemplate, JObj([])),
      responseFormat := OrElse(s.responseFormat, "openai"),
      contentPath := OrElse(s.responseContentPath, "choices.0.message.content"),
      modelPath := OrElse(s.responseModelPath, "model"),
      usagePath := OrElse(s.responseUsagePath, "usage")))
  }

  /** With no optional setting given, the adapter speaks the OpenAI shape in
      both directions with a `Bearer` token in `Authorization`, retries three
      times and reads content from `choices.0.message.content`. */
  lemma DefaultSettings(url: string, key: string)
    requires |url| > 0 && |key| > 0
    ensures var r := NewProvider(Settings(Some(url), Some(key), None, None, None, None, None, None, None, None, None, None));
      && r.Ok?
      && r.value.apiKeyHeader == "Authorization" && r.value.apiKeyPrefix == "Bearer"
      && r.value.timeout == 60 && r.value.maxRetries == 3
      && r.value.requestFormat == "openai" && r.value.responseFormat == "openai"
      && r.value.requestTemplate == JObj([])
      && r.value.contentPath == "choices.0.message.content"
      && r.value.modelPath == "model" && r.value.usagePath == "usage"
  {
  }

  /** Headers sent with every attempt: the JSON content type and the
      credential, prefixed and space-separated when a prefix is configured.
      A credential header named `Content-Type` overwrites the content type. */
  function BuildHeaders(p: Provider): (h: map<string, string>)
    ensures h.Keys == {"Content-Type", p.apiKeyHeader}
    ensures p.apiKeyHeader != "Content-Type" ==> h["Content-Type"] == "application/json"
    ensures |p.apiKeyPrefix| > 0 ==>
              && |h[p.apiKeyHeader]| == |p.apiKeyPrefix| + 1 + |p.apiKey|
              && h[p.apiKeyHeader][..|p.apiKeyPrefix| + 1] == p.apiKeyPrefix + " "
              && h[p.apiKeyHeader][|p.apiKeyPrefix| + 1..] == p.apiKey
    ensures |p.apiKeyPrefix| == 0 ==> h[p.apiKeyHeader] == p.apiKey
  {
    var headers := map["Content-Type" := "application/json"];
    if |p.apiKeyPrefix| > 0 then
      var value := p.apiKeyPrefix + " " + p.apiKey;
      assert value[..|p.apiKeyPrefix| + 1] == p.apiKeyPrefix + " ";
      assert value[|p.apiKeyPrefix| + 1..] == p.apiKey;
      headers[p.apiKeyHeader := value]
    else
      headers[p.apiKeyHeader := p.apiKey]
  }
}

=== FILE: errors.dfy ===
/** Failure-carrying values for the provider: the Python exceptions the
    adapter can raise, an Option for absent values and a Result for
    operations that either return or raise. */
module Errors {

  datatype Option<+T> = None | Some(value: T)

  /** The exceptions that can leave the adapter. */
  datatype Error =
    | ValueError(message: string)   // configuration missing or an unknown format tag
    | IndexError                    // `[0]` on an empty list or string
    | KeyError                      // `[0]` on a dict
    | TypeError                     // `[0]` on None, a bool or a number
    | AttributeError                // `.get` on something that is not a dict
    | ClientError(cause: string)    // aiohttp.ClientError re-raised by the last attempt
    | OtherError(cause: string)     // any other transport exception, never retried

  datatype Result<+T> = Ok(value: T) | Err(error: Error)
}

=== FILE: json.dfy ===
/** JSON-like values as Python holds them after `json.loads`, plus the two
    Python text conversions the adapter relies on. */
module Json {
  import opened Errors

  /** Python `None` is `JNull`; a dict is an ordered list of fields. */
  datatype Json =
    | JNull
    | JBool(b: bool)
    | JInt(i: int)
    | JFloat(f: real)
    | JStr(s: string)
    | JArr(items: seq<Json>)
    | JObj(fields: seq<Field>)

  datatype Field = Field(key: string, value: Json)

  /** `isinstance(v, (dict, list))` */
  predicate IsContainer(v: Json) {
    v.JArr? || v.JObj?
  }

  /** The keys of a dict, in insertion order. */
  function Keys(fields: seq<Field>): (ks: seq<string>)
    ensures |ks| == |fields|
    ensures forall i :: 0 <= i < |fields| ==> ks[i] == fields[i].key
  {
    seq(|fields|, i requires 0 <= i < |fields| => fields[i].key)
  }

  /** Dict lookup: the value bound to `key`, if any. */
  function Lookup(fields: seq<Field>, key: string): (r: Option<Json>)
    ensures r.None? <==> forall i :: 0 <= i < |fields| ==> fields[i].key != key
    ensures r.Some? ==> exists i :: 0 <= i < |fields| && fields[i] == Field(key, r.value)
  {
    if |fields| == 0 then None
    else if fields[0].key == key then Some(fields[0].value)
    else
      var rest := Lookup(fields[1..], key);
      assert forall i :: 1 <= i < |fields| ==> fields[i] == fields[1..][i - 1];
      rest
  }

  /** The first binding of a key is the one found. */
  lemma {:induction false} LookupFirst(fields: seq<Field>, key: string, i: int)
    requires 0 <= i < |fields| && fields[i].key == key
    requires forall j :: 0 <= j < i ==> fields[j].key != key
    ensures Lookup(fields, key) == Some(fields[i].value)
    decreases i
  {
    if i > 0 {
      LookupFirst(fields[1..], key, i - 1);
    }
  }

  /** `d.get(key, default)` on a dict `d`. */
  function GetOr(fields: seq<Field>, key: string, default: Json): Json {
    match Lookup(fields, key)
    case Some(v) => v
    case None => default
  }

  /** Python truthiness of a JSON value (`x or y` keeps `x` when this holds). */
  predicate Truthy(v: Json) {
    match v
    case JNull => false
    case JBool(b) => b
    case JInt(i) => i != 0
    case JFloat(f) => f != 0.0
    case JStr(s) => |s| > 0
    case JArr(xs) => |xs| > 0
    case JObj(fs) => |fs| > 0
  }

  /** Python's `str(v)` for non-strings and `json.dumps(v)`, left uninterpreted:
      the model holds for every choice of these two renderings. */
  datatype Renderer = Renderer(text: Json -> string, dumps: Json -> string)

  /** `str(v)`: a string is its own text, anything else goes through `text`. */
  function PyStr(r: Renderer, v: Json): string {
    if v.JStr? then v.s else r.text(v)
  }
}

=== FILE: paths.dfy ===
/** Dot-path extraction from a response body (`_extract_from_path`):
    digit segments index lists, other segments look up dict keys, and
    every mismatch yields `None` instead of raising. */
module Paths {
  import opened Errors
  import opened Json

  predicate NoDot(s: string) {
    forall i :: 0 <= i < |s| ==> s[i] != '.'
  }

  /** Python's `s.split(".")`: never empty, an empty piece between two
      adjacent dots or at either end. */
  function Split(s: string): (parts: seq<string>)
    ensures |parts| >= 1
    decreases |s|
  {
    if |s| == 0 then [""]
    else
      var rest := Split(s[1..]);
      if s[0] == '.' then [""] + rest
      else [[s[0]] + rest[0]] + rest[1..]
  }

  /** Python's `".".join(parts)`. */
  function Join(parts: seq<string>): string
    requires |parts| >= 1
  {
    if |parts| == 1 then parts[0] else parts[0] + "." + Join(parts[1..])
  }

  /** Joining a piece in front of further pieces. */
  lemma {:induction false} JoinCons(p: string, ps: seq<string>)
    ensures Join([p] + ps) == if |ps| == 0 then p else p + "." + Join(ps)
  {
    if |ps| > 0 {
      assert ([p] + ps)[1..] == ps;
    }
  }

  /** Prepending a non-dot character extends the first piece. */
  lemma {:induction false} JoinExtendFirst(c: char, rest: seq<string>)
    requires |rest| >= 1
    ensures Join([[c] + rest[0]] + rest[1..]) == [c] + Join(rest)
  {
    var ps := rest[1..];
    assert rest == [rest[0]] + ps;
    JoinCons([c] + rest[0], ps);
    JoinCons(rest[0], ps);
    if |ps| > 0 {
      ConsAssoc(c, rest[0], "." + Join(ps));
    }
  }

  lemma ConsAssoc(c: char, a: string, b: string)
    ensures [c] + a + b == [c] + (a + b)
  {
  }

  /** Splitting and re-joining gives back the path. */
  lemma {:induction false} SplitJoin(s: string)
    ensures Join(Split(s)) == s
    decreases |s|
  {
    if |s| > 0 {
      var rest := Split(s[1..]);
      SplitJoin(s[1..]);
      if s[0] == '.' {
        assert Split(s)[1..] == rest;
      } else {
        JoinExtendFirst(s[0], rest);
      }
      assert [s[0]] + s[1..] == s;
    }
  }

  /** No piece of a split path holds a dot. */
  lemma {:induction false} SplitPiecesNoDot(s: string)
    ensures forall i :: 0 <= i < |Split(s)| ==> NoDot(Split(s)[i])
    decreases |s|
  {
    if |s| > 0 {
      var rest := Split(s[1..]);
      var parts := Split(s);
      SplitPiecesNoDot(s[1..]);
      forall i | 0 <= i < |parts|
        ensures NoDot(parts[i])
      {
        if i > 0 { assert parts[i] == rest[i - (if s[0] == '.' then 1 else 0)]; }
      }
    }
  }

  /** A path without a dot is a single piece. */
  lemma {:induction false} SplitNoDot(s: string)
    requires NoDot(s)
    ensures Split(s) == [s]
    decreases |s|
  {
    if |s| > 0 {
      SplitNoDot(s[1..]);
      assert [s[0]] + s[1..] == s;
    }
  }

  /** Splitting at a dot splits the pieces on either side independently. */
  lemma {:induction false} SplitDot(a: string, b: string)
    ensures Split(a + "." + b) == Split(a) + Split(b)
    decreases |a|
  {
    var s := a + "." + b;
    if |a| == 0 {
      assert s == "." + b;
      assert s[1..] == b;
    } else {
      assert s[1..] == a[1..] + "." + b;
      SplitDot(a[1..], b);
    }
  }

  /** Joining dot-free pieces and splitting again gives back the pieces. */
  lemma {:induction false} JoinSplit(parts: seq<string>)
    requires |parts| >= 1
    requires forall i :: 0 <= i < |parts| ==> NoDot(parts[i])
    ensures Split(Join(parts)) == parts
    decreases |parts|
  {
    SplitNoDot(parts[0]);
    if |parts| > 1 {
      JoinSplit(parts[1..]);
      SplitDot(parts[0], Join(parts[1..]));
      assert [parts[0]] + parts[1..] == parts;
    }
  }

  /** `s.isdigit()` restricted to ASCII decimal digits. */
  predicate IsDigits(s: string) {
    |s| > 0 && forall i :: 0 <= i < |s| ==> '0' <= s[i] <= '9'
  }

  /** `int(s)` for a string of decimal digits. */
  function ParseNat(s: string): nat
    requires forall i :: 0 <= i < |s| ==> '0' <= s[i] <= '9'
    decreases |s|
  {
    if |s| == 0 then 0
    else ParseNat(s[..|s| - 1]) * 10 + (s[|s| - 1] as int - '0' as int)
  }

  /** The decimal text of a natural number (Python's `str(n)`). */
  function DecimalText(n: nat): (s: string)
    ensures IsDigits(s)
    ensures ParseNat(s) == n
    decreases n
  {
    var last := [('0' as int + n % 10) as char];
    if n < 10 then last
    else
      var prefix := DecimalText(n / 10);
      var s := prefix + last;
      assert s[..|s| - 1] == prefix;
      s
  }

  /** One loop iteration of the walk. */
  function Step(current: Json, part: string): (next: Json)
    ensures next != JNull && IsDigits(part) ==>
              current.JArr? && ParseNat(part) < |current.items| && next == current.items[ParseNat(part)]
    ensures next != JNull && !IsDigits(part) ==>
              current.JObj? && Lookup(current.fields, part) == Some(next)
    ensures IsDigits(part) && current.JArr? && ParseNat(part) < |current.items| ==>
              next == current.items[ParseNat(part)]
    ensures !IsDigits(part) && current.JObj? && Lookup(current.fields, part).Some? ==>
              next == Lookup(current.fields, part).value
  {
    if current.JNull? then JNull
    else if IsDigits(part) then
      var index := ParseNat(part);
      if current.JArr? && index < |current.items| then current.items[index] else JNull
    else if current.JObj? then GetOr(current.fields, part, JNull)
    else JNull
  }

  /** The loop over the path's pieces; a `None` reached early stays `None`. */
  function Walk(current: Json, parts: seq<string>): (v: Json)
    ensures current.JNull? ==> v.JNull?
    ensures |parts| == 0 ==> v == current
    decreases |parts|
  {
    if |parts| == 0 then current
    else if current.JNull? then JNull
    else Walk(Step(current, parts[0]), parts[1..])
  }

  /** `_extract_from_path(data, path)`; `JNull` is Python's `None`. */
  function Extract(data: Json, path: string): (r: Json)
    ensures |path| == 0 ==> r == data
  {
    if |path| == 0 then data else Walk(data, Split(path))
  }

  /** Walking two piece lists in turn is walking their concatenation. */
  lemma {:induction false} WalkAppend(current: Json, ps: seq<string>, qs: seq<string>)
    ensures Walk(current, ps + qs) == Walk(Walk(current, ps), qs)
    decreases |ps|
  {
    if |ps| == 0 {
      assert ps + qs == qs;
    } else if current.JNull? {
      if |qs| > 0 {
        assert Walk(JNull, qs) == JNull;
      }
    } else {
      assert (ps + qs)[1..] == ps[1..] + qs;
      WalkAppend(Step(current, ps[0]), ps[1..], qs);
    }
  }

  /** Extraction along `a.b` is extraction along `b` from the result of `a`. */
  lemma ExtractCompose(data: Json, a: string, b: string)
    requires |a| > 0 && |b| > 0
    ensures Extract(data, a + "." + b) == Extract(Extract(data, a), b)
  {
    SplitDot(a, b);
    WalkAppend(data, Split(a), Split(b));
  }

  /** A single dot-free segment is one step. */
  lemma ExtractSegment(data: Json, part: string)
    requires |part| > 0 && NoDot(part)
    ensures Extract(data, part) == Step(data, part)
  {
    SplitNoDot(part);
    assert [part][1..] == [];
    if !data.JNull? {
      assert Walk(data, [part]) == Walk(Step(data, part), []);
    }
  }

  /** Every path applied to `None` gives `None`. */
  lemma NoneExtractsNone(path: string)
    ensures Extract(JNull, path) == JNull
  {
    if |path| > 0 {
      assert |Split(path)| > 0;
    }
  }

  /** `key.n` on a dict whose `key` is a list of length at most `n` yields
      `None` rather than raising. */
  lemma IndexOutOfRangeIsAbsent(fields: seq<Field>, key: string, items: seq<Json>, n: nat)
    requires |key| > 0 && NoDot(key) && !IsDigits(key)
    requires Lookup(fields, key) == Some(JArr(items))
    requires n >= |items|
    ensures Extract(JObj(fields), key + "." + DecimalText(n)) == JNull
  {
    var digits := DecimalText(n);
    assert NoDot(digits);
    ExtractCompose(JObj(fields), key, digits);
    ExtractSegment(JObj(fields), key);
    ExtractSegment(JArr(items), digits);
  }

  /** `a.b` on a dict whose `a` is a dict reaches that dict's `b`. */
  lemma NestedKeyLookup(fields: seq<Field>, a: string, inner: seq<Field>, b: string, v: Json)
    requires |a| > 0 && NoDot(a) && !IsDigits(a)
    requires |b| > 0 && NoDot(b) && !IsDigits(b)
    requires Lookup(fields, a) == Some(JObj(inner))
    requires Lookup(inner, b) == Some(v)
    ensures Extract(JObj(fields), a + "." + b) == v
  {
    ExtractCompose(JObj(fields), a, b);
    ExtractSegment(JObj(fields), a);
    ExtractSegment(JObj(inner), b);
  }
}

=== FILE: placeholders.dfy ===
/** Recursive `{{name}}` substitution over a JSON request template
    (`_replace_placeholders`). */
module Placeholders {
  import opened Json
  import opened Text

  /** One `(key, value)` item of the substitution dict, in iteration order. */
  datatype Entry = Entry(key: string, value: Json)

  function Placeholder(key: string): string {
    "{{" + key + "}}"
  }

  /** The text a value is spliced in as: JSON text for a dict or list,
      `str(value)` for anything else. */
  function Rendered(v: Json, r: Renderer): string {
    if IsContainer(v) then r.dumps(v) else PyStr(r, v)
  }

  /** Keys that a placeholder search can tell apart: no braces, no repeats. */
  ghost predicate DistinctPlainKeys(entries: seq<Entry>) {
    && (forall i :: 0 <= i < |entries| ==> BraceFree(entries[i].key))
    && (forall i, j :: 0 <= i < j < |entries| ==> entries[i].key != entries[j].key)
  }

  /** The string branch: keys are tried in order against the text rewritten
      so far; a dict/list value replaces a text that is exactly its
      placeholder, and otherwise every occurrence is replaced by its rendering. */
  function SubstituteText(data: string, entries: seq<Entry>, r: Renderer): (u: Json)
    ensures (forall i :: 0 <= i < |entries| ==> !IsContainer(entries[i].value)) ==> u.JStr?
    ensures !u.JStr? ==> IsContainer(u)
    decreases |entries|
  {
    if |entries| == 0 then JStr(data)
    else
      var e := entries[0];
      var ph := Placeholder(e.key);
      if !Contains(data, ph) then SubstituteText(data, entries[1..], r)
      else if IsContainer(e.value) && data == ph then e.value
      else SubstituteText(Replace(data, ph, Rendered(e.value, r)), entries[1..], r)
  }

  /** The tree walk: dicts keep their keys, lists their length and order,
      strings go through `SubstituteText`, every other leaf is returned as is. */
  function Substitute(t: Json, entries: seq<Entry>, r: Renderer): (u: Json)
    ensures t.JObj? ==> u.JObj? && Keys(u.fields) == Keys(t.fields)
    ensures t.JArr? ==> u.JArr? && |u.items| == |t.items|
    ensures !t.JStr? && !IsContainer(t) ==> u == t
    decreases t
  {
    match t
    case JObj(fs) =>
      JObj(seq(|fs|, i requires 0 <= i < |fs| => Field(fs[i].key, Substitute(fs[i].value, entries, r))))
    case JArr(xs) =>
      JArr(seq(|xs|, i requires 0 <= i < |xs| => Substitute(xs[i], entries, r)))
    case JStr(s) => SubstituteText(s, entries, r)
    case _ => t
  }

  /** `u` has the shape of template `t`: same dict keys in the same order,
      same list lengths, identical non-string leaves; a string leaf may
      become anything. */
  ghost predicate SameShape(t: Json, u: Json)
    decreases t
  {
    match t
    case JObj(fs) =>
      && u.JObj? && |u.fields| == |fs|
      && forall i :: 0 <= i < |fs| ==>
           u.fields[i].key == fs[i].key && SameShape(fs[i].value, u.fields[i].value)
    case JArr(xs) =>
      && u.JArr? && |u.items| == |xs|
      && forall i :: 0 <= i < |xs| ==> SameShape(xs[i], u.items[i])
    case JStr(_) => true
    case _ => u == t
  }

  /** Substitution never renames a key, resizes a list or touches a
      non-string leaf. */
  lemma {:induction false} SubstituteKeepsShape(t: Json, entries: seq<Entry>, r: Renderer)
    ensures SameShape(t, Substitute(t, entries, r))
    decreases t
  {
    match t
    case JObj(fs) =>
      forall i | 0 <= i < |fs|
        ensures SameShape(fs[i].value, Substitute(fs[i].value, entries, r))
      {
        SubstituteKeepsShape(fs[i].value, entries, r);
      }
    case JArr(xs) =>
      forall i | 0 <= i < |xs|
        ensures SameShape(xs[i], Substitute(xs[i], entries, r))
      {
        SubstituteKeepsShape(xs[i], entries, r);
      }
    case _ =>
  }

  /** No placeholder of any entry occurs in `s`. */
  ghost predicate NoKnownPlaceholder(s: string, entries: seq<Entry>) {
    forall i :: 0 <= i < |entries| ==> !Contains(s, Placeholder(entries[i].key))
  }

  /** A string with no known placeholder (unknown `{{x}}` tokens included)
      comes back unchanged. */
  lemma {:induction false} TextWithoutPlaceholderUnchanged(s: string, entries: seq<Entry>, r: Renderer)
    requires NoKnownPlaceholder(s, entries)
    ensures SubstituteText(s, entries, r) == JStr(s)
    decreases |entries|
  {
    if |entries| > 0 {
      assert !Contains(s, Placeholder(entries[0].key));
      TextWithoutPlaceholderUnchanged(s, entries[1..], r);
    }
  }

  /** Every string leaf of `t` is free of known placeholders. */
  ghost predicate PlaceholderFree(t: Json, entries: seq<Entry>)
    decreases t
  {
    match t
    case JObj(fs) => forall i :: 0 <= i < |fs| ==> PlaceholderFree(fs[i].value, entries)
    case JArr(xs) => forall i :: 0 <= i < |xs| ==> PlaceholderFree(xs[i], entries)
    case JStr(s) => NoKnownPlaceholder(s, entries)
    case _ => true
  }

  /** A template that mentions no known placeholder is returned unchanged. */
  lemma {:induction false} PlaceholderFreeUnchanged(t: Json, entries: seq<Entry>, r: Renderer)
    requires PlaceholderFree(t, entries)
    ensures Substitute(t, entries, r) == t
    decreases t
  {
    match t
    case JObj(fs) =>
      forall i | 0 <= i < |fs|
        ensures Substitute(fs[i].value, entries, r) == fs[i].value
      {
        PlaceholderFreeUnchanged(fs[i].value, entries, r);
      }
      assert Substitute(t, entries, r).fields == fs;
    case JArr(xs) =>
      forall i | 0 <= i < |xs|
        ensures Substitute(xs[i], entries, r) == xs[i]
      {
        PlaceholderFreeUnchanged(xs[i], entries, r);
      }
      assert Substitute(t, entries, r).items == xs;
    case JStr(s) =>
      TextWithoutPlaceholderUnchanged(s, entries, r);
    case _ =>
  }

  /** A string leaf becomes either a string or one of the dict/list values
      verbatim; when no value is a dict or list, it is always a string. */
  lemma {:induction false} TextResultKind(s: string, entries: seq<Entry>, r: Renderer)
    ensures var u := SubstituteText(s, entries, r);
      u.JStr? || exists i :: 0 <= i < |entries| && IsContainer(entries[i].value) && u == entries[i].value
    decreases |entries|
  {
    if |entries| > 0 {
      var e := entries[0];
      var ph := Placeholder(e.key);
      var u := SubstituteText(s, entries, r);
      if Contains(s, ph) && IsContainer(e.value) && s == ph {
        assert u == entries[0].value;
      } else {
        var s' := if Contains(s, ph) then Replace(s, ph, Rendered(e.value, r)) else s;
        assert u == SubstituteText(s', entries[1..], r);
        TextResultKind(s', entries[1..], r);
        if !u.JStr? {
          var i :| 0 <= i < |entries[1..]| && IsContainer(entries[1..][i].value) && u == entries[1..][i].value;
          assert entries[1..][i] == entries[i + 1];
        }
      }
    }
  }

  /** A placeholder spliced into a text occurs in it. */
  lemma PlaceholderOccurs(pre: string, key: string, post: string)
    ensures Contains(pre + Placeholder(key) + post, Placeholder(key))
  {
    var s := pre + Placeholder(key) + post;
    assert s[|pre|..|pre| + |Placeholder(key)|] == Placeholder(key);
    assert OccursAt(s, Placeholder(key), |pre|);
    ContainsIff(s, Placeholder(key));
  }

  /** When the spliced placeholder holds the only `{` of the text, any
      brace-free key's placeholder found in it is that very placeholder. */
  lemma PlaceholderOccurrenceIsOwn(pre: string, key: string, post: string, other: string, i: int)
    requires NoOpenBrace(pre) && NoOpenBrace(post)
    requires BraceFree(key) && BraceFree(other)
    requires OccursAt(pre + Placeholder(key) + post, Placeholder(other), i)
    ensures i == |pre| && other == key
  {
    var s := pre + Placeholder(key) + post;
    var q := Placeholder(other);
    var base := |pre| + 2;
    assert s[i..i + |q|] == q;
    assert s[i] == '{' && s[i + 1] == '{' by {
      assert q[0] == '{' && q[1] == '{';
    }
    // Only indices |pre| and |pre| + 1 of s hold '{'.
    assert forall j :: 0 <= j < |pre| ==> s[j] == pre[j];
    assert forall j :: 0 <= j < |key| ==> s[base + j] == key[j];
    assert s[base + |key|] == '}' && s[base + |key| + 1] == '}';
    assert forall j :: 0 <= j < |post| ==> s[base + |key| + 2 + j] == post[j];
    assert i == |pre|;
    assert forall j :: 0 <= j < |other| ==> s[base + j] == other[j];
    assert s[base + |other|] == '}' by {
      assert q[2 + |other|] == '}';
    }
    assert |other| == |key|;
    assert other == key;
  }

  /** With distinct brace-free keys, `pre + {{key}} + post` contains no
      other key's placeholder when `pre` and `post` hold no `{`. */
  lemma OnlyOwnPlaceholder(pre: string, key: string, post: string, other: string)
    requires NoOpenBrace(pre) && NoOpenBrace(post)
    requires BraceFree(key) && BraceFree(other) && key != other
    ensures !Contains(pre + Placeholder(key) + post, Placeholder(other))
  {
    var s := pre + Placeholder(key) + post;
    ContainsIff(s, Placeholder(other));
    if Contains(s, Placeholder(other)) {
      var i :| OccursAt(s, Placeholder(other), i);
      PlaceholderOccurrenceIsOwn(pre, key, post, other, i);
    }
  }

  /** Every suffix of a distinct brace-free key list is one too. */
  lemma DistinctPlainKeysTail(entries: seq<Entry>)
    requires |entries| > 0 && DistinctPlainKeys(entries)
    ensures DistinctPlainKeys(entries[1..])
  {
    forall i, j | 0 <= i < j < |entries[1..]|
      ensures entries[1..][i].key != entries[1..][j].key
    {
      assert entries[1..][i] == entries[i + 1] && entries[1..][j] == entries[j + 1];
    }
  }

  /** A text with no `{{` contains no placeholder at all. */
  lemma NoDoubleOpenNoPlaceholder(s: string, entries: seq<Entry>)
    requires !Contains(s, "{{")
    ensures NoKnownPlaceholder(s, entries)
  {
    forall i | 0 <= i < |entries|
      ensures !Contains(s, Placeholder(entries[i].key))
    {
      NoDoubleOpenNoMatch(s, Placeholder(entries[i].key));
    }
  }

  /** A string that is exactly the placeholder of a dict/list value becomes
      that value itself, with its native type. */
  lemma {:induction false} ExactContainerPlaceholder(entries: seq<Entry>, j: int, r: Renderer)
    requires DistinctPlainKeys(entries)
    requires 0 <= j < |entries| && IsContainer(entries[j].value)
    ensures SubstituteText(Placeholder(entries[j].key), entries, r) == entries[j].value
    decreases j
  {
    var data := Placeholder(entries[j].key);
    assert data == "" + data + "";
    if j == 0 {
      PlaceholderOccurs("", entries[j].key, "");
    } else {
      OnlyOwnPlaceholder("", entries[j].key, "", entries[0].key);
      DistinctPlainKeysTail(entries);
      assert entries[1..][j - 1] == entries[j];
      ExactContainerPlaceholder(entries[1..], j - 1, r);
    }
  }

  /** A placeholder surrounded by `{`-free text is replaced in place by its
      rendering (`str(value)`, or JSON text for a dict/list that is not
      alone in the string), and the surrounding characters are kept. */
  lemma {:induction false} EmbeddedPlaceholder(entries: seq<Entry>, j: int, pre: string, post: string, r: Renderer)
    requires DistinctPlainKeys(entries)
    requires 0 <= j < |entries|
    requires NoOpenBrace(pre) && NoOpenBrace(post)
    requires !Contains(Rendered(entries[j].value, r), "{{")
    requires !IsContainer(entries[j].value) || |pre| + |post| > 0
    ensures SubstituteText(pre + Placeholder(entries[j].key) + post, entries, r)
         == JStr(pre + Rendered(entries[j].value, r) + post)
    decreases j
  {
    var e := entries[j];
    var ph := Placeholder(e.key);
    var data := pre + ph + post;
    if j == 0 {
      var text := Rendered(e.value, r);
      PlaceholderOccurs(pre, e.key, post);
      assert !(IsContainer(e.value) && data == ph) by {
        assert |data| == |pre| + |ph| + |post|;
      }
      ReplaceAfterPrefix(pre, ph, post, text);
      NoOpenBraceNoMatch(post, ph);
      ReplaceAbsent(post, ph, text);
      assert Replace(data, ph, text) == pre + text + post;
      SandwichNoDoubleOpen(pre, text, post);
      NoDoubleOpenNoPlaceholder(pre + text + post, entries[1..]);
      TextWithoutPlaceholderUnchanged(pre + text + post, entries[1..], r);
    } else {
      OnlyOwnPlaceholder(pre, e.key, post, entries[0].key);
      DistinctPlainKeysTail(entries);
      assert entries[1..][j - 1] == e;
      EmbeddedPlaceholder(entries[1..], j - 1, pre, post, r);
    }
  }

  /** A string that is exactly the placeholder of a scalar value becomes
      the text `str(value)`. */
  lemma ExactScalarPlaceholder(entries: seq<Entry>, j: int, r: Renderer)
    requires DistinctPlainKeys(entries)
    requires 0 <= j < |entries| && !IsContainer(entries[j].value)
    requires !Contains(Rendered(entries[j].value, r), "{{")
    ensures SubstituteText(Placeholder(entries[j].key), entries, r) == JStr(Rendered(entries[j].value, r))
  {
    var ph := Placeholder(entries[j].key);
    EmbeddedPlaceholder(entries, j, [], [], r);
    assert [] + ph + [] == ph;
    assert [] + Rendered(entries[j].value, r) + [] == Rendered(entries[j].value, r);
  }

  /** Keys are substituted one after another: when no earlier key's
      placeholder occurs in the string and the placeholder occurs only right
      after `pre`, the string becomes `pre`, the rendering and `post`, and
      the later keys then run on that rewritten text, including any
      placeholder the rendering brought in. */
  lemma {:induction false} SplicedThenLaterKeys(entries: seq<Entry>, j: int, pre: string, post: string, r: Renderer)
    requires 0 <= j < |entries|
    requires forall k :: 0 <= k < j ==> !Contains(pre + Placeholder(entries[j].key) + post, Placeholder(entries[k].key))
    requires forall k :: 0 <= k < |pre| ==> !OccursAt(pre + Placeholder(entries[j].key) + post, Placeholder(entries[j].key), k)
    requires !Contains(post, Placeholder(entries[j].key))
    requires !IsContainer(entries[j].value) || |pre| + |post| > 0
    ensures SubstituteText(pre + Placeholder(entries[j].key) + post, entries, r)
         == SubstituteText(pre + Rendered(entries[j].value, r) + post, entries[j + 1..], r)
    decreases j
  {
    var e := entries[j];
    var ph := Placeholder(e.key);
    var data := pre + ph + post;
    if j == 0 {
      var text := Rendered(e.value, r);
      PlaceholderOccurs(pre, e.key, post);
      assert !(IsContainer(e.value) && data == ph) by {
        assert |data| == |pre| + |ph| + |post|;
      }
      SplicedReplace(pre, ph, post, text);
      assert entries[j + 1..] == entries[1..];
    } else {
      assert !Contains(data, Placeholder(entries[0].key));
      var tail := entries[1..];
      assert tail[j - 1] == e;
      forall k | 0 <= k < j - 1
        ensures !Contains(data, Placeholder(tail[k].key))
      {
        assert tail[k] == entries[k + 1];
      }
      assert tail[j..] == entries[j + 1..];
      SplicedThenLaterKeys(tail, j - 1, pre, post, r);
    }
  }

  /** The general form of `EmbeddedPlaceholder`, for any surrounding text:
      under the hypotheses of `SplicedThenLaterKeys`, and when the spliced
      result holds no later key's placeholder, the result is `pre`, the
      rendering and `post`. */
  lemma SplicedPlaceholder(entries: seq<Entry>, j: int, pre: string, post: string, r: Renderer)
    requires 0 <= j < |entries|
    requires forall k :: 0 <= k < j ==> !Contains(pre + Placeholder(entries[j].key) + post, Placeholder(entries[k].key))
    requires forall k :: 0 <= k < |pre| ==> !OccursAt(pre + Placeholder(entries[j].key) + post, Placeholder(entries[j].key), k)
    requires !Contains(post, Placeholder(entries[j].key))
    requires !IsContainer(entries[j].value) || |pre| + |post| > 0
    requires NoKnownPlaceholder(pre + Rendered(entries[j].value, r) + post, entries[j + 1..])
    ensures SubstituteText(pre + Placeholder(entries[j].key) + post, entries, r)
         == JStr(pre + Rendered(entries[j].value, r) + post)
  {
    SplicedThenLaterKeys(entries, j, pre, post, r);
    TextWithoutPlaceholderUnchanged(pre + Rendered(entries[j].value, r) + post, entries[j + 1..], r);
  }

  /** The replace step of `SplicedPlaceholder`: a pattern occurring only
      right after `pre` is rewritten there and nowhere else. */
  lemma SplicedReplace(pre: string, ph: string, post: string, text: string)
    requires |ph| > 0
    requires forall k :: 0 <= k < |pre| ==> !OccursAt(pre + ph + post, ph, k)
    requires !Contains(post, ph)
    ensures Replace(pre + ph + post, ph, text) == pre + text + post
  {
    var data := pre + ph + post;
    assert data[|pre|..|pre| + |ph|] == ph;
    ReplaceFirstOccurrence(data, ph, text, |pre|);
    assert data[..|pre|] == pre;
    assert data[|pre| + |ph|..] == post;
    ReplaceAbsent(post, ph, text);
  }

  /** The exact-match test sees text that earlier keys rewrote: when the
      first key's value is the text of the second key's placeholder and the
      second value is a dict or list, an exact first placeholder ends up as
      the second value itself. */
  lemma ExactMatchAfterRewrite(entries: seq<Entry>, r: Renderer)
    requires |entries| >= 2 && DistinctPlainKeys(entries)
    requires entries[0].value == JStr(Placeholder(entries[1].key))
    requires IsContainer(entries[1].value)
    ensures SubstituteText(Placeholder(entries[0].key), entries, r) == entries[1].value
  {
    var ph := Placeholder(entries[0].key);
    SplicedThenLaterKeys(entries, 0, [], [], r);
    assert [] + ph + [] == ph;
    var text := Placeholder(entries[1].key);
    assert Rendered(entries[0].value, r) == text;
    assert [] + text + [] == text;
    DistinctPlainKeysTail(entries);
    assert entries[1..][0] == entries[1];
    ExactContainerPlaceholder(entries[1..], 0, r);
  }
}

=== FILE: request.dfy ===
/** Request formatting (`_format_request`): the fixed OpenAI-shaped body,
    or the configured template with its placeholders substituted. */
module Request {
  import opened Errors
  import opened Json
  import opened Text
  import opened Placeholders
  import opened Config

  datatype Role = System | User | Assistant

  /** `role.value` */
  function Label(role: Role): string {
    match role
    case System => "system"
    case User => "user"
    case Assistant => "assistant"
  }

  function RoleOfLabel(name: string): (r: Option<Role>)
    ensures r.Some? ==> Label(r.value) == name
  {
    if name == "system" then Some(System)
    else if name == "user" then Some(User)
    else if name == "assistant" then Some(Assistant)
    else None
  }

  datatype Message = Message(role: Role, content: string)

  /** `{"role": msg.role.value, "content": msg.content}` */
  function MessageJson(m: Message): Json {
    JObj([Field("role", JStr(Label(m.role))), Field("content", JStr(m.content))])
  }

  /** The message list as sent: one dict per message, in turn order. */
  function MessagesJson(ms: seq<Message>): Json {
    JArr(seq(|ms|, i requires 0 <= i < |ms| => MessageJson(ms[i])))
  }

  /** Reads a message dict back; the partner of `MessageJson`. */
  function DecodeMessage(j: Json): Option<Message> {
    if j.JObj? && |j.fields| == 2
       && j.fields[0].key == "role" && j.fields[0].value.JStr?
       && j.fields[1].key == "content" && j.fields[1].value.JStr?
       && RoleOfLabel(j.fields[0].value.s).Some?
    then Some(Message(RoleOfLabel(j.fields[0].value.s).value, j.fields[1].value.s))
    else None
  }

  function DecodeMessages(items: seq<Json>): Option<seq<Message>>
    decreases |items|
  {
    if |items| == 0 then Some([])
    else
      match (DecodeMessage(items[0]), DecodeMessages(items[1..]))
      case (Some(m), Some(ms)) => Some([m] + ms)
      case _ => None
  }

  /** Formatting keeps every message's role and content, the number of
      messages and their order: decoding the sent list gives them back. */
  lemma {:induction false} MessagesRoundTrip(ms: seq<Message>)
    ensures DecodeMessages(MessagesJson(ms).items) == Some(ms)
    decreases |ms|
  {
    var items := MessagesJson(ms).items;
    if |ms| > 0 {
      var m := ms[0];
      assert items[0] == MessageJson(m);
      assert RoleOfLabel(Label(m.role)) == Some(m.role) by {
        match m.role
        case System =>
        case User =>
        case Assistant =>
      }
      assert items[1..] == MessagesJson(ms[1..]).items;
      MessagesRoundTrip(ms[1..]);
      assert [m] + ms[1..] == ms;
    }
  }

  /** The generation values after merging: `config.get(key, default)`. */
  datatype Generation = Generation(model: Json, maxTokens: Json, temperature: Json, topP: Json)

  function ConfigGet(merged: map<string, Json>, key: string, default: Json): Json {
    if key in merged then merged[key] else default
  }

  /** Defaults: the provider's model, 2000 tokens, temperature 0.7, top_p 1.0. */
  function Resolve(merged: map<string, Json>, defaultModel: Json): Generation {
    Generation(
      ConfigGet(merged, "model", defaultModel),
      ConfigGet(merged, "max_tokens", JInt(2000)),
      ConfigGet(merged, "temperature", JFloat(0.7)),
      ConfigGet(merged, "top_p", JFloat(1.0)))
  }

  /** The substitution dict, in its iteration order. */
  function Entries(g: Generation, ms: seq<Message>): seq<Entry> {
    [ Entry("model", g.model),
      Entry("messages", MessagesJson(ms)),
      Entry("max_tokens", g.maxTokens),
      Entry("temperature", g.temperature),
      Entry("top_p", g.topP) ]
  }

  lemma EntriesDistinctPlain(g: Generation, ms: seq<Message>)
    ensures DistinctPlainKeys(Entries(g, ms))
  {
    var es := Entries(g, ms);
    assert es[0].key == "model" && es[1].key == "messages" && es[2].key == "max_tokens"
        && es[3].key == "temperature" && es[4].key == "top_p";
  }

  function OpenAIBody(ms: seq<Message>, g: Generation): Json {
    JObj([
      Field("model", g.model),
      Field("messages", MessagesJson(ms)),
      Field("max_tokens", g.maxTokens),
      Field("temperature", g.temperature),
      Field("top_p", g.topP),
      Field("stream", JBool(false))])
  }

  /** What a filled template keeps of the configured one. */
  lemma TemplateFacts(template: Json, entries: seq<Entry>, r: Renderer)
    ensures SameShape(template, Substitute(template, entries, r))
    ensures PlaceholderFree(template, entries) ==> Substitute(template, entries, r) == template
  {
    SubstituteKeepsShape(template, entries, r);
    if PlaceholderFree(template, entries) {
      PlaceholderFreeUnchanged(template, entries, r);
    }
  }

  /** The generation values of the built-in body, each under its key. */
  lemma OpenAIBodyValues(ms: seq<Message>, g: Generation)
    ensures var body := OpenAIBody(ms, g);
      && Lookup(body.fields, "model") == Some(g.model)
      && Lookup(body.fields, "max_tokens") == Some(g.maxTokens)
      && Lookup(body.fields, "temperature") == Some(g.temperature)
      && Lookup(body.fields, "top_p") == Some(g.topP)
  {
    var fields := OpenAIBody(ms, g).fields;
    LookupFirst(fields, "model", 0);
    BodyMaxTokens(ms, g);
    BodyTemperature(ms, g);
    BodyTopP(ms, g);
  }

  /** Single-key steps of `OpenAIBodyValues`, each looked up past the
      earlier keys. */
  lemma BodyMaxTokens(ms: seq<Message>, g: Generation)
    ensures Lookup(OpenAIBody(ms, g).fields, "max_tokens") == Some(g.maxTokens)
  {
    var fields := OpenAIBody(ms, g).fields;
    LookupFirst(fields, "max_tokens", 2);
  }

  lemma BodyTemperature(ms: seq<Message>, g: Generation)
    ensures Lookup(OpenAIBody(ms, g).fields, "temperature") == Some(g.temperature)
  {
    var fields := OpenAIBody(ms, g).fields;
    LookupFirst(fields, "temperature", 3);
  }

  lemma BodyTopP(ms: seq<Message>, g: Generation)
    ensures Lookup(OpenAIBody(ms, g).fields, "top_p") == Some(g.topP)
  {
    var fields := OpenAIBody(ms, g).fields;
    LookupFirst(fields, "top_p", 4);
  }

  /** The built-in body: six keys in order, the messages recoverable from it, `stream` false. */
  lemma OpenAIBodyFacts(ms: seq<Message>, g: Generation)
    ensures var body := OpenAIBody(ms, g);
      && Keys(body.fields) == ["model", "messages", "max_tokens", "temperature", "top_p", "stream"]
      && Lookup(body.fields, "stream") == Some(JBool(false))
      && Lookup(body.fields, "messages") == Some(MessagesJson(ms))
      && DecodeMessages(MessagesJson(ms).items) == Some(ms)
  {
    var body := OpenAIBody(ms, g);
    MessagesRoundTrip(ms);
    LookupFirst(body.fields, "messages", 1);
    LookupFirst(body.fields, "stream", 5);
  }

  /** `_format_request` */
  function FormatRequest(p: Provider, ms: seq<Message>, merged: map<string, Json>, defaultModel: Json, r: Renderer): (res: Result<Json>)
    ensures p.requestFormat == "openai" ==>
      && res.Ok? && res.value.JObj?
      && Keys(res.value.fields) == ["model", "messages", "max_tokens", "temperature", "top_p", "stream"]
      && Lookup(res.value.fields, "model") == Some(ConfigGet(merged, "model", defaultModel))
      && Lookup(res.value.fields, "max_tokens") == Some(ConfigGet(merged, "max_tokens", JInt(2000)))
      && Lookup(res.value.fields, "temperature") == Some(ConfigGet(merged, "temperature", JFloat(0.7)))
      && Lookup(res.value.fields, "top_p") == Some(ConfigGet(merged, "top_p", JFloat(1.0)))
      && Lookup(res.value.fields, "stream") == Some(JBool(false))
      && Lookup(res.value.fields, "messages").Some?
      && Lookup(res.value.fields, "messages").value.JArr?
      && DecodeMessages(Lookup(res.value.fields, "messages").value.items) == Some(ms)
    ensures p.requestFormat == "custom" && !IsContainer(p.requestTemplate) ==> res == Err(AttributeError)
    ensures p.requestFormat == "custom" && IsContainer(p.requestTemplate) ==>
      && res.Ok?
      && SameShape(p.requestTemplate, res.value)
      && (PlaceholderFree(p.requestTemplate, Entries(Resolve(merged, defaultModel), ms)) ==> res.value == p.requestTemplate)
    ensures p.requestFormat != "openai" && p.requestFormat != "custom" ==>
      res == Err(ValueError("Unknown request format: " + p.requestFormat))
  {
    var g := Resolve(merged, defaultModel);
    if p.requestFormat == "openai" then
      OpenAIBodyFacts(ms, g);
      OpenAIBodyValues(ms, g);
      Ok(OpenAIBody(ms, g))
    else if p.requestFormat == "custom" then
      if !IsContainer(p.requestTemplate) then Err(AttributeError)   // only dicts and lists have `.copy()`
      else
        var entries := Entries(g, ms);
        TemplateFacts(p.requestTemplate, entries, r);
        Ok(Substitute(p.requestTemplate, entries, r))
    else
      Err(ValueError("Unknown request format: " + p.requestFormat))
  }

  /** A template string that is exactly `{{messages}}` becomes the message
      list itself, not its text. */
  lemma MessagesPlaceholderKeepsList(g: Generation, ms: seq<Message>, r: Renderer)
    ensures SubstituteText("{{messages}}", Entries(g, ms), r) == MessagesJson(ms)
  {
    EntriesDistinctPlain(g, ms);
    assert Placeholder(Entries(g, ms)[1].key) == "{{messages}}";
    ExactContainerPlaceholder(Entries(g, ms), 1, r);
  }

  /** `{{messages}}` inside a longer string is replaced by the list's JSON
      text, keeping the characters around it. */
  lemma MessagesPlaceholderEmbedded(g: Generation, ms: seq<Message>, r: Renderer, pre: string, post: string)
    requires NoOpenBrace(pre) && NoOpenBrace(post) && |pre| + |post| > 0
    requires !Contains(r.dumps(MessagesJson(ms)), "{{")
    ensures SubstituteText(pre + "{{messages}}" + post, Entries(g, ms), r)
         == JStr(pre + r.dumps(MessagesJson(ms)) + post)
  {
    EntriesDistinctPlain(g, ms);
    assert Placeholder(Entries(g, ms)[1].key) == "{{messages}}";
    EmbeddedPlaceholder(Entries(g, ms), 1, pre, post, r);
  }

  /** `{{model}}` inside a string is replaced in place by the model's text;
      a dict/list model that is alone in the string is kept as is. */
  lemma ModelPlaceholder(g: Generation, ms: seq<Message>, r: Renderer, pre: string, post: string)
    requires NoOpenBrace(pre) && NoOpenBrace(post)
    ensures IsContainer(g.model) && |pre| + |post| == 0 ==>
      SubstituteText(pre + "{{model}}" + post, Entries(g, ms), r) == g.model
    ensures !(IsContainer(g.model) && |pre| + |post| == 0) && !Contains(Rendered(g.model, r), "{{") ==>
      SubstituteText(pre + "{{model}}" + post, Entries(g, ms), r) == JStr(pre + Rendered(g.model, r) + post)
  {
    EntriesDistinctPlain(g, ms);
    assert Placeholder(Entries(g, ms)[0].key) == "{{model}}";
    if IsContainer(g.model) && |pre| + |post| == 0 {
      assert pre + "{{model}}" + post == "{{model}}";
      ExactContainerPlaceholder(Entries(g, ms), 0, r);
    } else if !Contains(Rendered(g.model, r), "{{") {
      EmbeddedPlaceholder(Entries(g, ms), 0, pre, post, r);
    }
  }

  /** A string that is exactly `{{max_tokens}}` becomes the text `str(value)`
      when the value is a scalar: native types are kept only for dicts and
      lists. */
  lemma MaxTokensPlaceholderIsText(g: Generation, ms: seq<Message>, r: Renderer)
    requires !IsContainer(g.maxTokens)
    requires !Contains(PyStr(r, g.maxTokens), "{{")
    ensures SubstituteText("{{max_tokens}}", Entries(g, ms), r) == JStr(PyStr(r, g.maxTokens))
  {
    var es := Entries(g, ms);
    EntriesDistinctPlain(g, ms);
    assert es[2].key == "max_tokens";
    assert Placeholder(es[2].key) == "{{max_tokens}}";
    ExactScalarPlaceholder(es, 2, r);
  }

  /** In custom mode with a dict or list template, the body sent is the
      template with the substitution dict applied. */
  lemma CustomBody(p: Provider, ms: seq<Message>, merged: map<string, Json>, defaultModel: Json, r: Renderer)
    requires p.requestFormat == "custom" && IsContainer(p.requestTemplate)
    ensures FormatRequest(p, ms, merged, defaultModel, r)
         == Ok(Substitute(p.requestTemplate, Entries(Resolve(merged, defaultModel), ms), r))
  {
  }

  /** A custom dict template with a field whose value is exactly
      `{{messages}}` is sent with the message list itself under that key,
      and every key of the template kept in place. */
  lemma MessagesFieldFilled(p: Provider, ms: seq<Message>, merged: map<string, Json>, defaultModel: Json, r: Renderer,
                            fs: seq<Field>, i: int)
    requires p.requestFormat == "custom" && p.requestTemplate == JObj(fs)
    requires 0 <= i < |fs| && fs[i].value == JStr("{{messages}}")
    ensures var res := FormatRequest(p, ms, merged, defaultModel, r);
      && res.Ok? && res.value.JObj? && Keys(res.value.fields) == Keys(fs)
      && res.value.fields[i] == Field(fs[i].key, MessagesJson(ms))
  {
    var g := Resolve(merged, defaultModel);
    CustomBody(p, ms, merged, defaultModel, r);
    var u := Substitute(JObj(fs), Entries(g, ms), r);
    assert u.fields[i] == Field(fs[i].key, SubstituteText("{{messages}}", Entries(g, ms), r));
    MessagesPlaceholderKeepsList(g, ms, r);
  }

  /** Line 119 compares against the text already rewritten: a model whose
      text is `{{messages}}` turns an exact `{{model}}` into that text, and
      the `messages` key then finds its own placeholder alone in the string
      and returns the message list itself. */
  lemma ModelTextNamingMessages(g: Generation, ms: seq<Message>, r: Renderer)
    requires g.model == JStr("{{messages}}")
    ensures SubstituteText("{{model}}", Entries(g, ms), r) == MessagesJson(ms)
  {
    var es := Entries(g, ms);
    EntriesDistinctPlain(g, ms);
    assert Placeholder(es[0].key) == "{{model}}";
    assert Placeholder(es[1].key) == "{{messages}}";
    ExactMatchAfterRewrite(es, r);
  }
}

=== FILE: response.dfy ===
/** Response normalisation (`_parse_response`): fixed OpenAI fields, or
    three configured dot-paths coerced to defaults. */
module Response {
  import opened Errors
  import opened Json
  import opened Paths
  import opened Config

  /** The values handed to `AIResponse`; `finishReason` is `None` in custom
      mode, and the metadata is the provider name and endpoint. */
  datatype AIResponse = AIResponse(
    content: Json,
    model: Json,
    usage: Json,
    finishReason: Json,
    provider: string,
    apiUrl: string)

  const UsageKeys: seq<string> := ["prompt_tokens", "completion_tokens", "total_tokens"]

  const ZeroUsage: Json :=
    JObj([Field("prompt_tokens", JInt(0)), Field("completion_tokens", JInt(0)), Field("total_tokens", JInt(0))])

  /** Python's `x[0]`. */
  function First(v: Json): (r: Result<Json>)
    ensures r.Ok? <==> (v.JArr? && |v.items| > 0) || (v.JStr? && |v.s| > 0)
    ensures v.JArr? && |v.items| > 0 ==> r == Ok(v.items[0])
    ensures (v.JArr? && |v.items| == 0) || (v.JStr? && |v.s| == 0) ==> r == Err(IndexError)
  {
    match v
    case JArr(items) => if |items| > 0 then Ok(items[0]) else Err(IndexError)
    case JStr(s) => if |s| > 0 then Ok(JStr([s[0]])) else Err(IndexError)
    case JObj(_) => Err(KeyError)     // a JSON dict has no key 0
    case _ => Err(TypeError)          // None, bools and numbers are not subscriptable
  }

  /** OpenAI mode: `choices` defaults to `[{}]`, `message` to `{}`, content to
      `""`, model to the provider's model and usage to all zeros; `.get` on
      anything but a dict raises AttributeError. */
  function ParseOpenAI(p: Provider, body: Json, defaultModel: Json): (res: Result<AIResponse>)
    ensures !body.JObj? ==> res == Err(AttributeError)
    ensures res.Err? ==> res.error.AttributeError? || res.error.IndexError? || res.error.KeyError? || res.error.TypeError?
    ensures res.Ok? ==> res.value.provider == "custom" && res.value.apiUrl == p.apiUrl
    ensures res.Ok? && body.JObj? ==>
      && (Lookup(body.fields, "model").Some? ==> res.value.model == Lookup(body.fields, "model").value)
      && (Lookup(body.fields, "usage").Some? ==> res.value.usage == Lookup(body.fields, "usage").value)
  {
    if !body.JObj? then Err(AttributeError)
    else
      match First(GetOr(body.fields, "choices", JArr([JObj([])])))
      case Err(e) => Err(e)
      case Ok(choice) =>
        if !choice.JObj? then Err(AttributeError)
        else
          var message := GetOr(choice.fields, "message", JObj([]));
          if !message.JObj? then Err(AttributeError)
          else Ok(AIResponse(
            GetOr(message.fields, "content", JStr("")),
            GetOr(body.fields, "model", defaultModel),
            GetOr(body.fields, "usage", ZeroUsage),
            GetOr(choice.fields, "finish_reason", JNull),
            "custom",
            p.apiUrl))
  }

  /** Custom-mode content: `""` for `None`, the string itself, or `str(x)`. */
  function ContentText(x: Json, r: Renderer): string {
    if x.JNull? then "" else PyStr(r, x)
  }

  /** Custom-mode usage: exactly the three counters, each read from a dict
      usage value with default 0, all 0 when the value is not a dict. */
  function UsageCounters(u: Json): (n: Json)
    ensures n.JObj? && Keys(n.fields) == UsageKeys
    ensures forall i :: 0 <= i < 3 ==>
      n.fields[i].value == (if u.JObj? && Lookup(u.fields, UsageKeys[i]).Some?
                            then Lookup(u.fields, UsageKeys[i]).value else JInt(0))
    ensures !u.JObj? ==> n == ZeroUsage
  {
    var fields := if u.JObj? then u.fields else [];
    JObj([
      Field("prompt_tokens", GetOr(fields, "prompt_tokens", JInt(0))),
      Field("completion_tokens", GetOr(fields, "completion_tokens", JInt(0))),
      Field("total_tokens", GetOr(fields, "total_tokens", JInt(0)))])
  }

  /** Custom mode: three independent path lookups, each coerced. */
  function ParseCustom(p: Provider, body: Json, defaultModel: Json, r: Renderer): (res: AIResponse)
    ensures res.content.JStr?
    ensures Extract(body, p.contentPath).JNull? ==> res.content == JStr("")
    ensures Extract(body, p.contentPath).JStr? ==> res.content == Extract(body, p.contentPath)
    ensures var c := Extract(body, p.contentPath); !c.JNull? && !c.JStr? ==> res.content == JStr(r.text(c))
    ensures Truthy(Extract(body, p.modelPath)) ==> res.model == Extract(body, p.modelPath)
    ensures !Truthy(Extract(body, p.modelPath)) ==> res.model == defaultModel
    ensures res.usage.JObj? && Keys(res.usage.fields) == UsageKeys
    ensures !Extract(body, p.usagePath).JObj? ==> res.usage == ZeroUsage
    ensures res.usage == UsageCounters(Extract(body, p.usagePath))
    ensures res.finishReason == JNull && res.provider == "custom" && res.apiUrl == p.apiUrl
  {
    var content := Extract(body, p.contentPath);
    var model := Extract(body, p.modelPath);
    var usage := Extract(body, p.usagePath);
    AIResponse(
      JStr(ContentText(content, r)),
      if Truthy(model) then model else defaultModel,
      UsageCounters(usage),
      JNull,
      "custom",
      p.apiUrl)
  }

  /** `_parse_response` */
  function ParseResponse(p: Provider, body: Json, defaultModel: Json, r: Renderer): (res: Result<AIResponse>)
    ensures p.responseFormat == "custom" ==> res == Ok(ParseCustom(p, body, defaultModel, r))
    ensures p.responseFormat == "openai" ==> res == ParseOpenAI(p, body, defaultModel)
    ensures p.responseFormat != "openai" && p.responseFormat != "custom" ==>
      res == Err(ValueError("Unknown response format: " + p.responseFormat))
  {
    if p.responseFormat == "openai" then ParseOpenAI(p, body, defaultModel)
    else if p.responseFormat == "custom" then Ok(ParseCustom(p, body, defaultModel, r))
    else Err(ValueError("Unknown response format: " + p.responseFormat))
  }

  /** OpenAI mode on a dict body: absent `usage`, `model`, `choices`,
      `message` or `content` fall back to their defaults, while an empty
      `choices` list raises IndexError. */
  lemma OpenAIDefaults(p: Provider, fields: seq<Field>, defaultModel: Json)
    ensures var res := ParseOpenAI(p, JObj(fields), defaultModel);
      && (Lookup(fields, "choices") == Some(JArr([])) ==> res == Err(IndexError))
      && (Lookup(fields, "choices").None? ==>
            res == Ok(AIResponse(JStr(""), GetOr(fields, "model", defaultModel),
                                 GetOr(fields, "usage", ZeroUsage), JNull, "custom", p.apiUrl)))
      && (res.Ok? && Lookup(fields, "usage").None? ==> res.value.usage == ZeroUsage)
      && (res.Ok? && Lookup(fields, "model").None? ==> res.value.model == defaultModel)
      && (res.Ok? ==> res.value.provider == "custom" && res.value.apiUrl == p.apiUrl)
  {
  }

  /** OpenAI mode on a body whose first choice is a dict with a dict
      `message`: the content is the message's `content`, or `""`. */
  lemma OpenAIContent(p: Provider, fields: seq<Field>, choice: seq<Field>, rest: seq<Json>, message: seq<Field>, defaultModel: Json)
    requires Lookup(fields, "choices") == Some(JArr([JObj(choice)] + rest))
    requires Lookup(choice, "message") == Some(JObj(message))
    ensures var res := ParseOpenAI(p, JObj(fields), defaultModel);
      && res.Ok?
      && (Lookup(message, "content").None? ==> res.value.content == JStr(""))
      && (Lookup(message, "content").Some? ==> res.value.content == Lookup(message, "content").value)
      && res.value.finishReason == GetOr(choice, "finish_reason", JNull)
  {
  }

  /** OpenAI mode on a body whose first choice is a dict without a usable
      `message`: a missing `message` reads as `{}` and gives content `""`,
      while a `message` that is not a dict fails on `.get`. */
  lemma OpenAIMessageAbsent(p: Provider, fields: seq<Field>, choice: seq<Field>, rest: seq<Json>, defaultModel: Json)
    requires Lookup(fields, "choices") == Some(JArr([JObj(choice)] + rest))
    ensures var res := ParseOpenAI(p, JObj(fields), defaultModel);
      && (Lookup(choice, "message").None? ==>
            res.Ok? && res.value.content == JStr("") && res.value.finishReason == GetOr(choice, "finish_reason", JNull))
      && (Lookup(choice, "message").Some? && !Lookup(choice, "message").value.JObj? ==> res == Err(AttributeError))
  {
  }

  /** A custom body read with a two-segment content path `a.b` through
      nested dicts: the nested string is the content, and a usage path that
      is absent gives all-zero counters. */
  lemma CustomNestedContent(p: Provider, body: seq<Field>, a: string, inner: seq<Field>, b: string,
                            text: string, defaultModel: Json, r: Renderer)
    requires |a| > 0 && NoDot(a) && !IsDigits(a)
    requires |b| > 0 && NoDot(b) && !IsDigits(b)
    requires p.contentPath == a + "." + b
    requires Lookup(body, a) == Some(JObj(inner)) && Lookup(inner, b) == Some(JStr(text))
    requires Extract(JObj(body), p.usagePath).JNull?
    ensures ParseCustom(p, JObj(body), defaultModel, r).content == JStr(text)
    ensures ParseCustom(p, JObj(body), defaultModel, r).usage == ZeroUsage
  {
    NestedKeyLookup(body, a, inner, b, JStr(text));
  }
}

=== FILE: retry.dfy ===
/** The retry loop of `_make_request`, with the HTTP call abstracted into
    the outcome of each attempt and `asyncio.sleep` recorded as a delay. */
module Retry {
  import opened Errors
  import opened Json

  /** What one POST attempt produced. */
  datatype Attempt =
    | Reply(body: Json)              // 2xx status and a JSON body
    | ClientFailure(cause: string)   // an aiohttp.ClientError: caught by the loop
    | OtherFailure(cause: string)    // any other exception: not caught

  /** How the loop ended: a returned body, a raised exception, or falling off
      the end of an empty `range(max_retries)` (Python returns `None`). */
  datatype Outcome = Returned(body: Json) | Raised(error: Error) | FellThrough

  /** The outcome, the number of attempts made and the backoff delays slept. */
  datatype Trace = Trace(outcome: Outcome, attempts: nat, delays: seq<nat>)

  function Pow2(n: nat): (p: nat)
    ensures p >= 1
  {
    if n == 0 then 1 else 2 * Pow2(n - 1)
  }

  /** The delays 1, 2, 4, ... slept after the first `n` attempts. */
  function Backoffs(n: nat): seq<nat> {
    seq(n, i requires 0 <= i < n => Pow2(i))
  }

  function WithEarlierDelays(d: seq<nat>, t: Trace): Trace {
    Trace(t.outcome, t.attempts, d + t.delays)
  }

  /** The loop from iteration `attempt` on (reference definition). */
  function RetryFrom(attempt: nat, maxRetries: int, send: nat -> Attempt): Trace
    decreases maxRetries - attempt
  {
    if attempt >= maxRetries then Trace(FellThrough, attempt, [])
    else
      match send(attempt)
      case Reply(body) => Trace(Returned(body), attempt + 1, [])
      case OtherFailure(cause) => Trace(Raised(OtherError(cause)), attempt + 1, [])
      case ClientFailure(cause) =>
        if attempt == maxRetries - 1 then Trace(Raised(ClientError(cause)), attempt + 1, [])
        else WithEarlierDelays([Pow2(attempt)], RetryFrom(attempt + 1, maxRetries, send))
  }

  function Retry(maxRetries: int, send: nat -> Attempt): Trace {
    RetryFrom(0, maxRetries, send)
  }

  /** The loop as the source writes it: `for attempt in range(max_retries)`,
      return on success, re-raise on the last failure, sleep `2 ** attempt`
      after any earlier ClientError. */
  method MakeRequest(maxRetries: int, send: nat -> Attempt) returns (t: Trace)
    ensures t == Retry(maxRetries, send)
  {
    var attempt: nat := 0;
    var delays: seq<nat> := [];
    while attempt < maxRetries
      invariant Retry(maxRetries, send) == WithEarlierDelays(delays, RetryFrom(attempt, maxRetries, send))
      decreases maxRetries - attempt
    {
      match send(attempt)
      case Reply(body) =>
        t := Trace(Returned(body), attempt + 1, delays);
        return;
      case OtherFailure(cause) =>
        t := Trace(Raised(OtherError(cause)), attempt + 1, delays);
        return;
      case ClientFailure(cause) =>
        if attempt == maxRetries - 1 {
          t := Trace(Raised(ClientError(cause)), attempt + 1, delays);
          return;
        }
        delays := delays + [Pow2(attempt)];
        attempt := attempt + 1;
    }
    t := Trace(FellThrough, attempt, delays);
  }

  /** What the loop does from iteration `attempt` on: it stops at the first
      attempt that is not a ClientError or at the last permitted one, and
      sleeps `2^i` after every earlier attempt `i`. */
  lemma {:induction false} RetryFromSpec(attempt: nat, maxRetries: int, send: nat -> Attempt)
    ensures var t := RetryFrom(attempt, maxRetries, send);
      && (t.outcome.FellThrough? <==> attempt >= maxRetries)
      && (t.outcome.FellThrough? ==> t.attempts == attempt && t.delays == [])
      && (!t.outcome.FellThrough? ==> attempt < t.attempts <= maxRetries)
      && (forall i :: attempt <= i < t.attempts - 1 ==> send(i).ClientFailure?)
      && (!t.outcome.FellThrough? ==>
            match send(t.attempts - 1)
            case Reply(body) => t.outcome == Returned(body)
            case OtherFailure(cause) => t.outcome == Raised(OtherError(cause))
            case ClientFailure(cause) => t.outcome == Raised(ClientError(cause)) && t.attempts == maxRetries)
      && (!t.outcome.FellThrough? ==> |t.delays| == t.attempts - 1 - attempt)
      && (forall i :: 0 <= i < |t.delays| ==> t.delays[i] == Pow2(attempt + i))
    decreases maxRetries - attempt
  {
    if attempt < maxRetries && send(attempt).ClientFailure? && attempt != maxRetries - 1 {
      RetryFromSpec(attempt + 1, maxRetries, send);
      var rest := RetryFrom(attempt + 1, maxRetries, send);
      var t := RetryFrom(attempt, maxRetries, send);
      assert t.delays == [Pow2(attempt)] + rest.delays;
      forall i | 0 <= i < |t.delays|
        ensures t.delays[i] == Pow2(attempt + i)
      {
        if i > 0 { assert t.delays[i] == rest.delays[i - 1]; }
      }
    }
  }

  /** The whole run: at most `max_retries` attempts, none at all (and a
      `None` result) when `max_retries <= 0`, and exactly one delay, of
      `2^i`, after each attempt `i` but the last. */
  lemma RetrySpec(maxRetries: int, send: nat -> Attempt)
    ensures var t := Retry(maxRetries, send);
      && (t.outcome.FellThrough? <==> maxRetries <= 0)
      && (t.outcome.FellThrough? ==> t.attempts == 0 && t.delays == [])
      && (!t.outcome.FellThrough? ==> 0 < t.attempts <= maxRetries && |t.delays| == t.attempts - 1)
      && (forall i :: 0 <= i < |t.delays| ==> t.delays[i] == Pow2(i))
  {
    RetryFromSpec(0, maxRetries, send);
  }

  /** The first successful attempt's body is returned and nothing after it
      is tried, provided every earlier attempt failed with a ClientError. */
  lemma FirstReplyReturned(maxRetries: int, send: nat -> Attempt, j: nat)
    requires j < maxRetries
    requires forall i :: 0 <= i < j ==> send(i).ClientFailure?
    requires send(j).Reply?
    ensures Retry(maxRetries, send) == Trace(Returned(send(j).body), j + 1, Backoffs(j))
  {
    RetryFromSpec(0, maxRetries, send);
  }

  /** When every permitted attempt fails with a ClientError, the last
      failure is re-raised after exactly `max_retries` attempts and
      `max_retries - 1` delays 1, 2, 4, .... */
  lemma ExhaustedRaisesLast(maxRetries: int, send: nat -> Attempt)
    requires maxRetries >= 1
    requires forall i :: 0 <= i < maxRetries ==> send(i).ClientFailure?
    ensures Retry(maxRetries, send)
         == Trace(Raised(ClientError(send(maxRetries - 1).cause)), maxRetries,
                  Backoffs(maxRetries - 1))
  {
    RetryFromSpec(0, maxRetries, send);
  }
}

=== FILE: text.dfy ===
/** Python string operations used by the adapter: the substring test
    (`p in s`) and `str.replace`, each tied to an index-based reading of
    where a pattern occurs. `Count` (Python's `str.count`, which the adapter
    does not call) only serves to state how `str.replace` changes length. */
module Text {

  predicate StartsWith(s: string, p: string) {
    |p| <= |s| && s[..|p|] == p
  }

  /** Python's `p in s`. */
  predicate Contains(s: string, p: string)
    ensures Contains(s, p) ==> |p| <= |s|
    ensures |p| == 0 ==> Contains(s, p)
    decreases |s|
  {
    StartsWith(s, p) || (|s| > 0 && Contains(s[1..], p))
  }

  /** `p` occurs in `s` starting at index `i`. */
  ghost predicate OccursAt(s: string, p: string, i: int) {
    0 <= i && i + |p| <= |s| && s[i..i + |p|] == p
  }

  /** The recursive substring test agrees with the index-based definition. */
  lemma {:induction false} ContainsIff(s: string, p: string)
    ensures Contains(s, p) <==> exists i :: OccursAt(s, p, i)
    decreases |s|
  {
    if StartsWith(s, p) {
      assert OccursAt(s, p, 0);
    } else if |s| > 0 {
      ContainsIff(s[1..], p);
      forall i | 0 <= i && i + 1 + |p| <= |s|
        ensures OccursAt(s, p, i + 1) <==> OccursAt(s[1..], p, i)
      {
        assert s[1..][i..i + |p|] == s[i + 1..i + 1 + |p|];
      }
      forall i | OccursAt(s, p, i)
        ensures i > 0
      {
      }
      if Contains(s[1..], p) {
        var i :| OccursAt(s[1..], p, i);
        assert OccursAt(s, p, i + 1);
      } else {
        forall i | OccursAt(s, p, i)
          ensures OccursAt(s[1..], p, i - 1)
        {
        }
      }
    }
  }

  /** Python's `s.replace(p, r)`: every non-overlapping occurrence of `p`,
      scanning left to right, becomes `r`; an empty `p` inserts `r` between
      every two characters and at both ends. */
  function Replace(s: string, p: string, r: string): (res: string)
    ensures r == p ==> res == s
    decreases |s|
  {
    if |p| == 0 then
      if |s| == 0 then r else r + [s[0]] + Replace(s[1..], p, r)
    else if |s| == 0 then s
    else if StartsWith(s, p) then r + Replace(s[|p|..], p, r)
    else [s[0]] + Replace(s[1..], p, r)
  }

  /** Python's `s.count(p)` for a non-empty `p`: the occurrences found by a
      left-to-right scan that resumes after each match. */
  function Count(s: string, p: string): nat
    requires |p| > 0
    decreases |s|
  {
    if |s| == 0 then 0
    else if StartsWith(s, p) then 1 + Count(s[|p|..], p)
    else Count(s[1..], p)
  }

  /** Occurrences in `s[1..]` are occurrences in `s`, one index later. */
  lemma OccursAtTail(s: string, p: string, k: int)
    requires |s| > 0 && 0 <= k
    ensures OccursAt(s[1..], p, k) <==> OccursAt(s, p, k + 1)
  {
    if k + |p| <= |s[1..]| {
      assert s[1..][k..k + |p|] == s[k + 1..k + 1 + |p|];
    }
  }

  /** A leading character where `p` does not occur is kept. */
  lemma ReplaceKeepsUnmatchedHead(s: string, p: string, r: string)
    requires |s| > 0 && |p| > 0 && !OccursAt(s, p, 0)
    ensures Replace(s, p, r) == [s[0]] + Replace(s[1..], p, r)
  {
    if |p| <= |s| {
      assert s[0..|p|] == s[..|p|];
    }
  }

  /** An occurrence at index 0 is rewritten first. */
  lemma ReplaceMatchedHead(s: string, p: string, r: string)
    requires |p| > 0 && OccursAt(s, p, 0)
    ensures Replace(s, p, r) == s[..0] + r + Replace(s[|p|..], p, r)
  {
    assert s == p + s[|p|..];
    ReplaceAtStart(p, s[|p|..], r);
    assert s[..0] + r == r;
  }

  /** The first occurrence at `i > 0` is, in `s[1..]`, the first one at `i - 1`. */
  lemma FirstOccurrenceInTail(s: string, p: string, i: int)
    requires 0 < i && OccursAt(s, p, i)
    requires forall k :: 0 <= k < i ==> !OccursAt(s, p, k)
    ensures OccursAt(s[1..], p, i - 1)
    ensures forall k :: 0 <= k < i - 1 ==> !OccursAt(s[1..], p, k)
  {
    forall k | 0 <= k < i - 1
      ensures !OccursAt(s[1..], p, k)
    {
      OccursAtTail(s, p, k);
    }
    OccursAtTail(s, p, i - 1);
  }

  /** Index-based reading of `str.replace`: when the first occurrence of a
      non-empty `p` is at index `i`, the text before it is kept, that
      occurrence becomes `r`, and the scan resumes right after it. */
  lemma {:induction false} ReplaceFirstOccurrence(s: string, p: string, r: string, i: int)
    requires |p| > 0
    requires OccursAt(s, p, i)
    requires forall k :: 0 <= k < i ==> !OccursAt(s, p, k)
    ensures Replace(s, p, r) == s[..i] + r + Replace(s[i + |p|..], p, r)
    decreases i
  {
    if i == 0 {
      ReplaceMatchedHead(s, p, r);
    } else {
      var t := s[1..];
      ReplaceKeepsUnmatchedHead(s, p, r);
      FirstOccurrenceInTail(s, p, i);
      ReplaceFirstOccurrence(t, p, r, i - 1);
      assert t[i - 1 + |p|..] == s[i + |p|..];
      ConsPrefix(s, i, r, Replace(s[i + |p|..], p, r));
    }
  }

  /** Putting back the head of a sequence in front of a slice of its tail. */
  lemma ConsPrefix(s: string, i: int, r: string, x: string)
    requires 0 < i <= |s|
    ensures [s[0]] + (s[1..][..i - 1] + r + x) == s[..i] + r + x
  {
    assert [s[0]] + s[1..][..i - 1] == s[..i];
  }

  lemma MulSucc(c: int, d: int)
    ensures (c + 1) * d == c * d + d
  {
  }

  /** Each of the `s.count(p)` occurrences changes the length by `|r| - |p|`. */
  lemma {:induction false} ReplaceLength(s: string, p: string, r: string)
    requires |p| > 0
    ensures |Replace(s, p, r)| == |s| + Count(s, p) * (|r| - |p|)
    decreases |s|
  {
    if |s| > 0 {
      if StartsWith(s, p) {
        var rest := s[|p|..];
        assert Replace(s, p, r) == r + Replace(rest, p, r);
        assert Count(s, p) == Count(rest, p) + 1;
        ReplaceLength(rest, p, r);
        MulSucc(Count(rest, p), |r| - |p|);
      } else {
        ReplaceLength(s[1..], p, r);
      }
    }
  }

  /** Replacing a pattern that does not occur leaves the string unchanged. */
  lemma {:induction false} ReplaceAbsent(s: string, p: string, r: string)
    requires !Contains(s, p)
    ensures Replace(s, p, r) == s
    decreases |s|
  {
    if |s| > 0 {
      ReplaceAbsent(s[1..], p, r);
      assert [s[0]] + s[1..] == s;
    }
  }

  /** No `{` anywhere in `s`. */
  predicate NoOpenBrace(s: string) {
    forall i :: 0 <= i < |s| ==> s[i] != '{'
  }

  /** Neither `{` nor `}` anywhere in `s`. */
  predicate BraceFree(s: string) {
    forall i :: 0 <= i < |s| ==> s[i] != '{' && s[i] != '}'
  }

  /** A leading occurrence of `p` is rewritten first. */
  lemma ReplaceAtStart(p: string, post: string, r: string)
    requires |p| > 0
    ensures Replace(p + post, p, r) == r + Replace(post, p, r)
  {
    var s := p + post;
    assert s[..|p|] == p;
    assert s[|p|..] == post;
  }

  /** A leading character that cannot begin `p` is kept. */
  lemma ReplaceSkipChar(c: char, rest: string, p: string, r: string)
    requires |p| > 0 && p[0] != c
    ensures Replace([c] + rest, p, r) == [c] + Replace(rest, p, r)
  {
    var s := [c] + rest;
    assert s[0] == c;
    assert s[1..] == rest;
  }

  /** When the text before the first `p` holds no `{` and `p` starts with `{`,
      replacement rewrites that first `p` and carries on after it. */
  lemma {:induction false} ReplaceAfterPrefix(pre: string, p: string, post: string, r: string)
    requires |p| > 0 && p[0] == '{'
    requires NoOpenBrace(pre)
    ensures Replace(pre + p + post, p, r) == pre + r + Replace(post, p, r)
    decreases |pre|
  {
    if |pre| == 0 {
      assert pre + p + post == p + post;
      ReplaceAtStart(p, post, r);
    } else {
      var tail := pre[1..] + p + post;
      assert pre + p + post == [pre[0]] + tail;
      ReplaceSkipChar(pre[0], tail, p, r);
      ReplaceAfterPrefix(pre[1..], p, post, r);
      assert [pre[0]] + pre[1..] == pre;
    }
  }

  /** Text without `{` contains no pattern that starts with `{`. */
  lemma {:induction false} NoOpenBraceNoMatch(s: string, p: string)
    requires NoOpenBrace(s)
    requires |p| > 0 && p[0] == '{'
    ensures !Contains(s, p)
    decreases |s|
  {
    if |s| > 0 {
      NoOpenBraceNoMatch(s[1..], p);
    }
  }

  /** Whoever contains `p` contains every prefix of `p`. */
  lemma {:induction false} ContainsPrefix(s: string, p: string, q: string)
    requires |q| <= |p| && p[..|q|] == q
    requires Contains(s, p)
    ensures Contains(s, q)
    decreases |s|
  {
    if StartsWith(s, p) {
      assert s[..|q|] == s[..|p|][..|q|];
    } else {
      ContainsPrefix(s[1..], p, q);
    }
  }

  /** Text without `{{` contains no pattern that starts with `{{`. */
  lemma NoDoubleOpenNoMatch(s: string, p: string)
    requires !Contains(s, "{{")
    requires |p| >= 2 && p[..2] == "{{"
    ensures !Contains(s, p)
  {
    if Contains(s, p) {
      ContainsPrefix(s, p, "{{");
    }
  }

  /** Putting text free of `{{` between two `{`-free texts creates no `{{`. */
  lemma SandwichNoDoubleOpen(pre: string, m: string, post: string)
    requires NoOpenBrace(pre) && NoOpenBrace(post)
    requires !Contains(m, "{{")
    ensures !Contains(pre + m + post, "{{")
  {
    var s := pre + m + post;
    ContainsIff(s, "{{");
    ContainsIff(m, "{{");
    forall i | OccursAt(s, "{{", i)
      ensures OccursAt(m, "{{", i - |pre|)
    {
      assert s[i] == '{' && s[i + 1] == '{' by {
        assert s[i..i + 2] == "{{";
      }
      var j := i - |pre|;
      assert m[j..j + 2] == s[i..i + 2];
    }
  }
}
